=== FILE: README.md ===
# Frame synchronisation engine: a Dafny model

This project models the core of a sensor-fusion server. Each sensor
source delivers timestamped frames. Every source has its own `Cache`, an
append-only buffer kept in timestamp order. The `SynchronizationManager`
repeatedly pops the earliest frame from the base cache. It then takes the
frame closest in time out of every other cache, dropping the older frames
it skips, and checks that every match lies within 0.2 s of the base
frame. Only then does it append the aligned tuple to `synced_data`.
The project also models the parser that turns one stream record, a
comma-separated, line-based text, into the frame dict that producers
push into their caches.

Modules (one file each):

- `Wrappers` (`wrappers.dfy`): `Option` and `Result`. They stand for
  Python's `None` returns and raised exceptions.
- `Caches` (`cache.dfy`): the `Cache` class as an immutable value with
  integer-microsecond timestamps. It covers `add`, `get_all`, `pop_first`,
  `find_closest_index` and `slice_left`.
- `Synchronization` (`synchronization.dfy`): `process_entries`,
  `validate_time_diff`, and one pass of the `synchronize_and_process` loop,
  modelled as a pure state transition (`Step`).
- `Text` (`text.dfy`): `str.splitlines()`, `str.split(',')` and `int()`,
  each with its round trip.
- `Records` (`records.dfy`): `record_to_frame`.

Timestamps are integers in microseconds, the resolution of Python's
`datetime`. The skew limit of 0.2 s is `MaxSkew == 200000`. The source
compares the float `µs / 10**6` with `0.2`. For every integer this is the
same as comparing `µs` with `200000`, so a difference of exactly 0.2 s
passes in both.

Three behaviours of the code are worth knowing before reading the
contracts:

- `find_closest_index` stops at the first frame that is not strictly
  closer than the one before it (sync.py:50-54), so on a tie it keeps the
  earlier index. With repeated timestamps the scan can therefore stop
  before the true nearest frame (`Caches.DuplicateTimesMissNearest`: times
  `[1, 1, 2]`, target `2`, gives index 0). The nearest-frame property is proved only for strictly
  increasing timestamps (`Caches.ClosestIsNearestWhenStrict`). For merely
  non-decreasing timestamps the model proves the local property instead.
- A skew violation raises `ValueError` out of the main loop. The model's
  `Step` returns `Aborted`, not a skipped entry. By then the base frame has
  already been popped and the other caches sliced, and `Aborted` carries
  that state.
- `lines[1:1 + number_of_objects]` follows Python slicing. A negative count
  of -2 or less is a bound counted from the end, so object lines are still
  read (`Records.ObjectLines`).

## Model

| member | source | states |
|---|---|---|
| `Caches.Add` | sync.py:21-26 | Fails with `OrderingViolation` exactly when the cache is non-empty and the new time is strictly older than the last. Otherwise the cache grows by exactly the new frame at its end; equal times are accepted. |
| `Caches.AddKeepsOrder` | sync.py:24-26 | On an ordered cache, `add` succeeds if and only if the appended sequence is still non-decreasing, so successful appends keep the cache ordered. |
| `Caches.OlderFrameRejected` | sync.py:24-25 | Frames at 5 then 3: the second insert is rejected and the cache holds only the first. |
| `Caches.GetAllIsSnapshot` | sync.py:29-37 | A list returned by `get_all` stays a prefix of the stored frames after a later `add`. After a `pop_first` the stored frames are that list without its first frame. |
| `Caches.PopFirst` | sync.py:33-37 | An empty cache gives `None` and is unchanged. Otherwise the result is the head, and head plus remaining cache equals the original. |
| `Caches.PopFirstYieldsEarliest` | sync.py:33-37 | On an ordered cache the popped frame is no later than any remaining frame, and the remainder stays ordered. |
| `Caches.FindClosestIndex` | sync.py:40-55 | `None` iff the cache is empty. Otherwise the index is in range, distances strictly decrease up to it, and the next frame, if any, is no closer. |
| `Caches.Scan` | sync.py:42-54 | The loop with `closest_diff` starting at infinity, replacing only on a strictly smaller distance and breaking otherwise, keeps the strictly-improving chain and stops at the first non-improvement. |
| `Caches.ImprovingChain` | sync.py:50-52 | A chain of strict improvements makes every earlier frame strictly farther than the last frame of the chain. |
| `Caches.DiscardedAreFarther` | sync.py:47-63 | Every frame before the chosen index is strictly farther from the target than the match, for any cache order. These are the frames `slice_left` drops. |
| `Caches.ClosestIsNearestWhenStrict` | sync.py:47-54 | With strictly increasing times the chosen frame minimises the distance over the whole cache, and every earlier frame is strictly farther, so ties go to the earlier index. |
| `Caches.DuplicateTimesMissNearest` | sync.py:50-54 | With times `[1, 1, 2]` and target 2 the scan returns index 0, although index 2 is at distance 0. |
| `Caches.SliceLeft` | sync.py:57-63 | `IndexOutOfRange` iff `index < 0` or `index >= len`. Otherwise returned prefix plus remaining cache equals the original, and the prefix has `index + 1` frames. |
| `Caches.SliceLeftKeepsOrder` | sync.py:57-63 | On an ordered cache the last returned frame is the one at `index`, the remainder stays ordered, and no returned frame is later than a remaining one. |
| `Synchronization.ReadyHasClosest` | sync.py:181-192 | Once `wait_for_data` can exit (cache non-empty, last time at or after the entry time), `find_closest_index` yields an in-range index, so `slice_left` never gets `None`. |
| `Synchronization.ReadyMeansFrameAtOrAfter` | sync.py:181-190 | On an ordered cache, the wait can return exactly when some stored frame is at or after the entry time. Testing only the last frame is therefore enough. |
| `Synchronization.MatchOne` | sync.py:197-200 | One `process_entries` iteration returns the frame at the closest index, and the cache keeps exactly the frames after it. |
| `Synchronization.ProcessEntries` | sync.py:194-201 | Exactly one match per cache of `caches[1:]`, in order. Each is that cache's closest frame, each such cache loses precisely the prefix through its closest index, and `caches[0]` is untouched. |
| `Synchronization.MatchesExtend` | sync.py:194-201 | Appending the last cache's match and trimmed cache to the results for the caches before it gives the right match and trimmed cache at every position, the new one included. |
| `Synchronization.ValidateTimeDiff` | sync.py:203-209 | Succeeds iff every match is within 200000 µs of the base (exactly 0.2 s passes). On failure it reports the distance of the first offending match. |
| `Synchronization.ValidateFrom` | sync.py:205-209 | The validation loop from position `i` succeeds iff every remaining match is within the limit, and otherwise fails at the first one that is not. |
| `Synchronization.MatchedKeys` | sync.py:176 | The comprehension has keys `cache1 .. cacheN`, with `cache{i}` bound to the `i`-th match. |
| `Synchronization.MakeSyncedEntry` | sync.py:176-177 | The synced entry has keys `cache0 .. cacheN`, `cache0` is the base frame and `cache{i}` the `i`-th match. |
| `Synchronization.PopAndMatch` | sync.py:162-174 | After popping the base and matching, the base cache has lost its head and every other cache its matched prefix. There is one match per other cache. |
| `Synchronization.ValidationMatchesSkew` | sync.py:174-175 | Validation of the matches succeeds iff every other cache's closest frame is within the skew limit of the popped base frame. |
| `Synchronization.ValidationReportsFirstBeyondSkew` | sync.py:203-209 | A failed validation reports the distance of the first other cache, in list order, whose closest frame is beyond the limit. |
| `Synchronization.Align` | sync.py:169-178 | After a pop, the pass records an entry iff all matches are within the limit. Otherwise it aborts with the log unchanged, reporting the distance of the first cache, in list order, whose match is beyond the limit. In both cases the event is cleared and the caches are sliced. |
| `Synchronization.AlignedState` | sync.py:169-178 | After a pop every cache is trimmed: the base cache loses its head and every other cache the frames through its closest one. If aligned, the log gains one entry at its end, whose keys are `cache0 .. cacheN`, with the base frame and each cache's closest frame. |
| `Synchronization.SyncedEntryOfMatches` | sync.py:175-177 | Given one match per other cache, each cache's closest frame, the built entry has exactly the keys `0 .. N`, maps `cache0` to the base frame and `cache{i}` to cache `i`'s closest frame. |
| `Synchronization.Step` | sync.py:152-178 | One loop pass. The log only grows, by one entry at its end, and a pass that pops a frame leaves the stop flag as it was. A stop request or an unset event changes nothing, and an empty base only clears the event. An entry is appended iff a base frame is popped and every match is within the limit. It maps `cache0` to the base and `cache{i}` to cache `i`'s closest frame. The pass aborts iff a base frame is popped and some match is beyond the limit. Then the caches are already sliced and the error carries the distance of the first such match. |
| `Synchronization.SuffixKeepsOrder` | sync.py:62 | What remains after removing a prefix of an ordered cache is ordered. |
| `Synchronization.TrimmedCachesStayOrdered` | sync.py:162-172 | Removing the popped head and the matched prefixes leaves every ordered cache ordered. |
| `Synchronization.MatchedEntryIsSkewValid` | sync.py:174-177 | An entry whose frames are the base frame and matches all within the skew limit has every frame within the limit of `cache0`. |
| `Synchronization.ExtendedLogStaysValid` | sync.py:177 | Appending a skew-valid entry to a log of skew-valid entries keeps every entry skew-valid. |
| `Synchronization.AlignPreservesValid` | sync.py:162-178 | A pass that pops a base frame keeps every cache ordered and every recorded entry skew-valid, whether it aligns or aborts. |
| `Synchronization.StepPreservesValid` | sync.py:162-178 | A pass keeps every cache time-ordered, and every recorded entry has all its frames within the skew limit of `cache0`. |
| `Synchronization.MatchWithinSkewIsRecorded` | sync.py:162-178 | Base at 10.00 s, other cache at 9.80 s and 10.05 s: 10.05 s is matched, 9.80 s is discarded, both caches end empty, the tuple is recorded and the event is cleared. |
| `Synchronization.MatchWithinSkewMatches` | sync.py:162-174 | Base at 10.00 s, other cache at 9.80 s and 10.05 s: the pass may run, 10.05 s is the match, and both caches end empty. |
| `Synchronization.OneMatchEntry` | sync.py:176-177 | With one other cache, the entry has exactly the keys `cache0` (the base frame) and `cache1` (the match). |
| `Synchronization.MatchBeyondSkewAborts` | sync.py:203-209 | Base at 10.00 s, closest other frame at 10.50 s: the pass aborts with distance 500000 µs and records nothing. |
| `Text.FirstIndex` | utils.py:15-16 | The search for the next separator returns the first position whose character matches, or the end of the text. |
| `Text.FirstIndexAt` | utils.py:15-16 | When no earlier character matches and position `n` does (or is the end), the search returns `n`. |
| `Text.SplitLines` | utils.py:15 | `splitlines` gives no lines iff the text is empty, and no line contains a line-break character. |
| `Text.SplitLinesOneLine` | utils.py:15 | Text without break characters is one line, or no line when empty. |
| `Text.SplitLinesAfterLine` | utils.py:15 | A break-free line followed by `\n`, `\r\n` or `\r` is split off as the first line; `\r\n` counts as one ending. |
| `Text.UnlinesHead` | utils.py:15 | Lines joined with `\r\n` or `\r` endings never start with `\n`, so a `\r` ending is never merged with what follows. |
| `Text.SplitLinesUnlines` | utils.py:15 | Break-free lines, each ended by `\n`, `\r\n` or `\r`, then an optional unterminated last line, split back into exactly those lines. An empty last line adds none. |
| `Text.LinesOfText` | utils.py:15 | Non-empty last line: break-free lines joined by one such ending split back into those lines, whether the last line is ended or not. |
| `Text.Split` | utils.py:16 | `split(',')` gives at least one piece, and no piece contains the separator. |
| `Text.JoinSplit` | utils.py:16 | Joining the pieces of a split with the separator gives back the text. |
| `Text.SplitJoin` | utils.py:16 | Separator-free pieces, joined, split back into exactly those pieces. |
| `Text.JoinNoLineBreak` | utils.py:16 | Joining single-line pieces with a non-break separator gives a single line. |
| `Text.TrimStart` | utils.py:19 | Only whitespace is removed from the front, and the result does not start with whitespace. |
| `Text.TrimEnd` | utils.py:19 | Only whitespace is removed from the end, and the result does not end with whitespace. |
| `Text.ParseInt` | utils.py:19 | `int()` succeeds iff the stripped text is an optional `+` or `-` followed by one or more ASCII digits, of any length (CPython's 4300-digit limit is under "Left out"). The value is the digits' decimal value, negated for `-`. |
| `Text.NumeralShape` | utils.py:19 | A numeral splits into sign and digits in exactly one way: a leading `-` or `+` is the sign, and otherwise there is none. |
| `Text.DigitsValueOfNatToDigits` | utils.py:19 | The decimal numeral of `n` reads back as `n`. |
| `Text.IntToStringIsClean` | utils.py:19 | The decimal form of an integer contains no comma and no line break. |
| `Text.TrimNumeral` | utils.py:19 | Stripping leaves a numeral unchanged. |
| `Text.IntToStringIsNumeral` | utils.py:19 | The decimal form of `n` is, after stripping, a `-` for negative `n` followed by the digits of its magnitude. |
| `Text.StripKeepsFirst` | utils.py:19 | Text whose first character is not whitespace to `int()` keeps that character first after stripping. |
| `Text.ParseIntSeparator` | utils.py:19 | Text that starts with one of U+001C..U+001F is never a number, because `int()` does not strip those separators. |
| `Text.ParseIntToString` | utils.py:19 | `int(str(n)) == n`. In CPython this holds for every integer of at most 4300 digits; beyond that `str(n)` itself raises, and the model, which has no digit limit, proves it for all integers. |
| `Records.Field` | utils.py:19-24 | `f[k]` succeeds iff `k` is in range and gives that field; otherwise it raises `IndexError`. |
| `Records.IntField` | utils.py:19-24 | `int(f[k])` raises `IndexError` for a missing field, before any conversion. A present field gives `int()`'s value, or `ValueError` when `int()` rejects it. |
| `Records.FloatField` | utils.py:37-44 | `float(f[k])` raises `IndexError` for a missing field. A present field gives `float()`'s value, or `ValueError` when `float()` rejects it. |
| `Records.TimeField` | utils.py:22 | `fromisoformat(f[3])` raises `IndexError` for a missing field. A present field gives the parsed time, or `ValueError` for a field that is not an ISO 8601 timestamp. |
| `Records.HeaderOfFields` | utils.py:18-26 | The header succeeds iff there are at least 6 fields and fields 1, 4, 5 pass `int()` and field 3 `fromisoformat`. Then it holds exactly those values, with fields 2 and 3 as text. A failure is an `IndexError` iff every converted field that is present converts, so a short line raises `IndexError` unless an earlier field raised `ValueError`. |
| `Records.ParseHeader` | utils.py:16-26 | The same success and error conditions, stated on the comma-split of line 0. |
| `Records.ObjectOfFields` | utils.py:33-45 | An object succeeds iff there are at least 12 fields, fields 1 and 2 pass `int()` and fields 4-11 pass `float()`. Then it holds those values, with field 3 as the class. A failure is an `IndexError` iff every numeric field that is present converts. |
| `Records.ParseObject` | utils.py:32-45 | The same success and error conditions, stated on the comma-split of an object line. |
| `Records.FloatFields` | utils.py:37-44 | The run of `float()` calls succeeds iff every field is present and converts, and then yields each field's value in order. A failure is an `IndexError` iff every field present converts. |
| `Records.ParseObjects` | utils.py:30-47 | Succeeds iff every object line parses. Then there is exactly one object per line, in line order. On failure the error is that of the first failing line. |
| `Records.ParseEach` | utils.py:31-47 | The per-line loop gives one result per line, in order, and stops with the error of the first failing line. |
| `Records.SliceBound` | utils.py:29 | A bound within `[0, len]` is kept, a bound above `len` becomes `len`, and a negative bound `i` counts from the end, becoming `i + len`, or 0 when that is still negative. |
| `Records.ObjectLines` | utils.py:29 | A count `n >= 0` takes `min(n, lines after the header)` lines right after the header; -1 takes none; `n <= -2` takes all but the last `-1 - n` lines after the header. |
| `Records.RecordToFrame` | utils.py:8-15 | An empty batch, or a first record without `Data`, gives `None`. Empty text raises `IndexError`. Otherwise the result is exactly the parse of the first record's `Data`: it succeeds iff that parse does, with the same frame or the same error. |
| `Records.ParseFrame` | utils.py:15-48 | Empty text raises `IndexError`. A line 0 that fails as a header gives that header error. Otherwise, object lines that fail give the first failing line's error. A parsed frame has as many objects as `lines[1:1 + number_of_objects]` has lines. When line 0 parses as a header and the selected object lines all parse, the frame is exactly that header with those objects. |
| `Records.OnlyFirstRecordRead` | utils.py:12-15 | Records after the first in the batch never change the result. |
| `Records.EncodeRows` | utils.py:30-32 | Encoder for the round trip, with no counterpart in the source: line `j` is the comma-joined fields of row `j`, the layout the object loop reads. |
| `Records.DecodeRows` | utils.py:30-47 | Reference decoder for the round trip, with no counterpart in the source: one object per row, in row order, with the values the object loop should produce. |
| `Records.IntFieldOfString` | utils.py:19 | A field written as `str(n)` is read back by `int()` as `n`. |
| `Records.RowFieldsAt` | utils.py:32-36 | In an object line, field 1 is the frame count, field 2 the id, field 3 the class and fields 4-11 the numbers. |
| `Records.RowFieldsConvert` | utils.py:33-45 | The fields of an object line give the object with those frame count, id, class and numeric values. |
| `Records.ParseEncodedRow` | utils.py:32-45 | An object line written from a row parses back to that row's values; field 0 is ignored. |
| `Records.TextLinesOnOneLine` | utils.py:15-16 | No line of an encoded frame contains a line break. |
| `Records.TextLinesNonEmpty` | utils.py:15-16 | No line of an encoded frame is empty. |
| `Records.EncodedLines` | utils.py:15 | The record text splits into the header line followed by the row lines. This holds for `\n`, `\r\n` or `\r` endings, with or without a final ending. |
| `Records.HeaderFieldsConvert` | utils.py:16-26 | Header field 1 becomes the frame count, 2 `time_s`, 3 `formatted_time` and its parsed time, 4 the object count, 5 the zone-binding count; field 0 is ignored. |
| `Records.ParseEncodedHeader` | utils.py:16-26 | The header line of an encoded frame parses back to its values, whatever field 0 holds. |
| `Records.EncodedHeaderLine` | utils.py:15-26 | Line 0 of an encoded frame's text parses to the frame's header values. |
| `Records.EncodedObjectLines` | utils.py:29 | From an encoded frame, `lines[1:1 + number_of_objects]` selects exactly the first `min(number_of_objects, rows)` row lines. |
| `Records.EncodedObjectsParse` | utils.py:29-47 | The selected object lines of an encoded frame parse to its first `min(number_of_objects, rows)` rows, decoded in order. |
| `Records.ParseEncodedRows` | utils.py:30-47 | Rows that all parse come back decoded, one object per line, in order. |
| `Records.ParseEncodedFrame` | utils.py:8-48 | Writing a frame as text and parsing the record gives back every header value and the first `min(number_of_objects, rows)` rows, decoded in order. Later rows are never read and field 0 of each line is ignored. |

## Left out

- Locks, `asyncio` events, threads and the busy wait in `wait_for_data`
  are concurrency. The model is single-threaded. The two events are
  booleans in `Manager`, and the wait's exit condition is the
  precondition `CanStep`.
- `Synchronization.Step`: in a sequential run the second stop check
  (sync.py:158-160) cannot fire, because nothing sets the flag between the
  loop test and that check. The model tests the stop flag once, first,
  as the `while` condition.
- `Synchronization.ProcessEntries`: caches are values. A list that holds
  the same `Cache` object twice, or a base cache that is not `caches[0]`,
  is not modelled. The system always passes `caches[0]` as the base.
- `Synchronization.ProcessEntries`: it requires every other cache to be
  non-empty. On an empty cache the source would call `slice_left(None)` and
  raise a `TypeError`. In the loop, `wait_for_data` always establishes
  non-emptiness first, so that path is not modelled.
- `Synchronization.MakeSyncedEntry`: a map has no key order, so the
  insertion order of the dict (`cache1 .. cacheN`, then `cache0`) is not
  kept. That order shows in the JSON dump and in the progress print at
  sync.py:179.
- The prints in the loop of `synchronize_and_process` (sync.py:159, 165
  and 179) are console output and change no state; `Step` leaves them out.
- `stop`, `new_data_available` and `start_synchronization` only set flags,
  start the coroutine and write JSON. `save_to_json`,
  `save_synced_data_to_json` and loading are file I/O.
- `SynchronizationManagerOld` is superseded code. `process_generators` and
  `continuous_generator` are producer threads and random test data with
  sleeps.
- The `fromisoformat` call in `Cache.add` (sync.py:22) is a library parse.
  Cache entries carry already-parsed microsecond times.
- `Caches.FindClosestIndex`: distances are compared exactly in
  microseconds. Python compares them as float seconds, and two distinct
  distances above about 2^52 µs (roughly 142 years) could round to the
  same float.
- `Records.RecordToFrame`: `Data` is taken as already-decoded text, so
  the `UnicodeDecodeError` of `decode('utf-8')` is not modelled.
  `float()` and `datetime.fromisoformat` are the abstract `Conversions`
  parameter; their `None` is a `ValueError`. Float values are `real`s.
- `Text.ParseInt`: this is weaker than Python's `int()`. Underscores
  between digits and non-ASCII decimal digits, both accepted by `int()`,
  are rejected here as a `ValueError`. The whitespace stripped from both
  ends is the set `int()` skips. That set is ASCII space, tab, line feed,
  carriage return, vertical tab and form feed, plus the Unicode spaces
  U+0085, U+00A0, U+1680, U+2000..U+200A, U+2028, U+2029, U+202F, U+205F
  and U+3000. It is not all of `str.isspace`: U+001C..U+001F are
  excluded. CPython 3.11 and later also raise `ValueError` for a numeral of
  more than 4300 digits (the default of `sys.set_int_max_str_digits`); that
  limit is configurable and not modelled, so a longer numeral parses here.
- The geometry in utils.py (`objects2boxes`, `transform_box`,
  `transform_boxes_list`, `transform_point`, `rx2rpy`, `calib2string`,
  `string2array`, `transform_frames`) is float matrix and quaternion
  numerics. The stream client, the fusion entry point and the
  visualisers are network I/O and rendering.


=== FILE: cache.dfy ===
/** The time-ordered frame buffer (`Cache` in sync.py).

    A cache is an immutable value here: every operation returns the new
    cache beside its result, and a raised error leaves the caller holding
    the cache it passed in, which is Python's "data unchanged".
    Timestamps are integer microseconds, the resolution of Python's
    `datetime`, so comparisons and differences are exact. */
module Caches {
  import opened Wrappers

  /** A point in time, in microseconds. */
  type Micros = int

  /** One stored frame: its `formatted_time` and the rest of the dict. */
  datatype Entry<P> = Entry(time: Micros, payload: P)

  /** The buffer's `data` list, oldest first. */
  datatype Cache<P> = Cache(data: seq<Entry<P>>)

  /** The errors the cache raises: `ValueError` from `add`, `IndexError` from `slice_left`. */
  datatype CacheError = OrderingViolation | IndexOutOfRange

  /** Timestamps never go backwards along the buffer. */
  ghost predicate NonDecreasing<P>(s: seq<Entry<P>>) {
    forall i, j :: 0 <= i < j < |s| ==> s[i].time <= s[j].time
  }

  /** Timestamps strictly increase along the buffer (no two frames share a time). */
  ghost predicate StrictlyIncreasing<P>(s: seq<Entry<P>>) {
    forall i, j :: 0 <= i < j < |s| ==> s[i].time < s[j].time
  }

  /** How far a frame's time lies from the target, in microseconds; the
      scan in `find_closest_index` compares frames by this distance. */
  function Distance<P>(e: Entry<P>, target: Micros): nat {
    if e.time >= target then e.time - target else target - e.time
  }

  // ---------------------------------------------------------------- add

  /** `Cache.add`: rejects a frame strictly older than the newest stored one;
      a frame with an equal timestamp is accepted. */
  function Add<P>(c: Cache<P>, e: Entry<P>): (r: Result<Cache<P>, CacheError>)
    ensures r.Failure? <==> |c.data| > 0 && e.time < c.data[|c.data| - 1].time
    ensures r.Failure? ==> r.error == OrderingViolation
    ensures r.Success? ==> |r.value.data| == |c.data| + 1 && r.value.data[..|c.data|] == c.data
    ensures r.Success? ==> r.value.data[|c.data|] == e
  {
    if |c.data| > 0 && e.time < c.data[|c.data| - 1].time then
      Failure(OrderingViolation)
    else
      Success(Cache(c.data + [e]))
  }

  /** On an ordered buffer, `add` succeeds exactly when the appended buffer is
      still ordered, and then the result is ordered. */
  lemma AddKeepsOrder<P>(c: Cache<P>, e: Entry<P>)
    requires NonDecreasing(c.data)
    ensures Add(c, e).Success? <==> NonDecreasing(c.data + [e])
    ensures Add(c, e).Success? ==> NonDecreasing(Add(c, e).value.data)
  {
    var s := c.data + [e];
    if Add(c, e).Success? {
      forall i, j | 0 <= i < j < |s|
        ensures s[i].time <= s[j].time
      {
        if j == |c.data| && i < |c.data| - 1 {
          assert s[i].time <= s[|c.data| - 1].time;
        }
      }
    } else {
      assert s[|c.data| - 1].time > s[|c.data|].time;
    }
  }

  /** Frames at 5 and then 3: the second insert is rejected and the cache
      still holds only the first. */
  lemma OlderFrameRejected()
    ensures var c := Add(Cache([]), Entry(5, 0));
            && c == Success(Cache([Entry(5, 0)]))
            && Add(c.value, Entry(3, 1)) == Failure(OrderingViolation)
  {
  }

  // ------------------------------------------------------------ get_all

  /** `Cache.get_all`: a point-in-time copy of the stored frames. */
  function GetAll<P>(c: Cache<P>): seq<Entry<P>> {
    c.data
  }

  /** A list returned by `get_all` is a snapshot: a later `add` only extends
      the stored frames beyond it, and a later `pop_first` only drops its
      first frame. */
  lemma GetAllIsSnapshot<P>(c: Cache<P>, e: Entry<P>)
    ensures Add(c, e).Success? ==> GetAll(Add(c, e).value)[..|GetAll(c)|] == GetAll(c)
    ensures |c.data| > 0 ==> GetAll(PopFirst(c).1) == GetAll(c)[1..]
  {
  }

  // ---------------------------------------------------------- pop_first

  /** `Cache.pop_first`: `None` on an empty cache, otherwise the oldest frame
      together with the cache that remains. */
  function PopFirst<P>(c: Cache<P>): (r: (Option<Entry<P>>, Cache<P>))
    ensures |c.data| == 0 ==> r.0 == None && r.1 == c
    ensures r.0.Some? ==> [r.0.value] + r.1.data == c.data
    ensures |c.data| > 0 ==> r.0.Some? && |r.1.data| == |c.data| - 1
  {
    if |c.data| == 0 then (None, c) else (Some(c.data[0]), Cache(c.data[1..]))
  }

  /** On an ordered buffer the popped frame is no later than any frame left
      behind, and what is left stays ordered. */
  lemma PopFirstYieldsEarliest<P>(c: Cache<P>)
    requires NonDecreasing(c.data)
    requires |c.data| > 0
    ensures NonDecreasing(PopFirst(c).1.data)
    ensures forall k :: 0 <= k < |PopFirst(c).1.data| ==>
              PopFirst(c).0.value.time <= PopFirst(c).1.data[k].time
  {
    var rest := PopFirst(c).1.data;
    assert rest == c.data[1..];
    forall k | 0 <= k < |rest|
      ensures PopFirst(c).0.value.time <= rest[k].time
    {
      assert rest[k] == c.data[k + 1];
    }
  }

  // ------------------------------------------------- find_closest_index

  /** The best distance the scan has seen: unbounded before the first frame,
      then the distance of the closest frame so far. */
  datatype Bound = Infinity | Finite(n: nat)

  /** A frame at distance `d` is strictly closer than the best so far. */
  predicate Below(d: nat, b: Bound) {
    b.Infinity? || d < b.n
  }

  /** Distances strictly shrink along `data[0..k]`: each step of the scan up
      to `k` was a strict improvement. */
  ghost predicate Improving<P>(data: seq<Entry<P>>, target: Micros, k: int) {
    forall m :: 0 < m <= k && m < |data| ==> Distance(data[m], target) < Distance(data[m - 1], target)
  }

  /** `Cache.find_closest_index`: the forward scan that keeps the index of the
      closest frame so far and stops at the first frame that is not strictly
      closer than the one before it. */
  function FindClosestIndex<P>(c: Cache<P>, target: Micros): (r: Option<nat>)
    ensures r.None? <==> |c.data| == 0
    ensures r.Some? ==> r.value < |c.data|
    ensures r.Some? ==> Improving(c.data, target, r.value)
    ensures r.Some? && r.value + 1 < |c.data| ==>
              Distance(c.data[r.value + 1], target) >= Distance(c.data[r.value], target)
  {
    Scan(c.data, target, 0, None, Infinity)
  }

  /** The scan of `find_closest_index` resumed at position `i`, with the index
      and distance of the closest frame so far as they stand before position
      `i` is examined. */
  function Scan<P>(data: seq<Entry<P>>, target: Micros, i: nat,
                   closestIndex: Option<nat>, closestDiff: Bound): (r: Option<nat>)
    requires i <= |data|
    requires closestIndex == (if i == 0 then None else Some(i - 1))
    requires closestDiff == (if i == 0 then Infinity else Finite(Distance(data[i - 1], target)))
    requires Improving(data, target, i - 1)
    ensures r.None? <==> |data| == 0
    ensures r.Some? ==> i <= r.value + 1 && r.value < |data|
    ensures r.Some? ==> Improving(data, target, r.value)
    ensures r.Some? && r.value + 1 < |data| ==>
              Distance(data[r.value + 1], target) >= Distance(data[r.value], target)
    decreases |data| - i
  {
    if i == |data| then
      closestIndex
    else
      var timeDiff := Distance(data[i], target);
      if Below(timeDiff, closestDiff) then
        Scan(data, target, i + 1, Some(i), Finite(timeDiff))
      else
        closestIndex
  }

  /** Every frame before the chosen index is strictly farther from the target
      than the chosen one, whatever the buffer's order: the frames that
      `slice_left` later discards are all worse candidates. */
  lemma {:induction false} DiscardedAreFarther<P>(c: Cache<P>, target: Micros)
    requires |c.data| > 0
    ensures forall j :: 0 <= j < FindClosestIndex(c, target).value ==>
              Distance(c.data[j], target) > Distance(c.data[FindClosestIndex(c, target).value], target)
  {
    var k := FindClosestIndex(c, target).value;
    ImprovingChain(c.data, target, k);
  }

  /** Strict improvement at every step makes every earlier frame strictly
      farther than the frame at `k`. */
  lemma {:induction false} ImprovingChain<P>(data: seq<Entry<P>>, target: Micros, k: nat)
    requires k < |data|
    requires Improving(data, target, k)
    ensures forall j :: 0 <= j < k ==> Distance(data[j], target) > Distance(data[k], target)
  {
    if k > 0 {
      assert Improving(data, target, k - 1);
      ImprovingChain(data, target, k - 1);
    }
  }

  /** With strictly increasing timestamps, the scan's answer is a true nearest
      frame, and any other frame at the same distance comes later: ties go
      to the earlier index. */
  lemma ClosestIsNearestWhenStrict<P>(c: Cache<P>, target: Micros)
    requires StrictlyIncreasing(c.data)
    requires |c.data| > 0
    ensures forall j :: 0 <= j < |c.data| ==>
              Distance(c.data[FindClosestIndex(c, target).value], target) <= Distance(c.data[j], target)
    ensures forall j :: 0 <= j < FindClosestIndex(c, target).value ==>
              Distance(c.data[j], target) > Distance(c.data[FindClosestIndex(c, target).value], target)
  {
    var data := c.data;
    var k := FindClosestIndex(c, target).value;
    ImprovingChain(data, target, k);
    if k + 1 < |data| {
      // The scan stopped, so the next frame is already past the target:
      // a frame at or before the target would have been strictly closer.
      assert data[k].time < data[k + 1].time;
      assert data[k + 1].time > target;
      forall j | k + 1 < j < |data|
        ensures Distance(data[k], target) <= Distance(data[j], target)
      {
        assert data[k + 1].time < data[j].time;
      }
    }
  }

  /** With merely non-decreasing timestamps the scan can stop before the
      nearest frame: times [1, 1, 2] and target 2 give index 0 although the
      frame at index 2 is at distance 0. */
  lemma DuplicateTimesMissNearest()
    ensures var c := Cache([Entry(1, 0), Entry(1, 1), Entry(2, 2)]);
            && NonDecreasing(c.data)
            && FindClosestIndex(c, 2) == Some(0)
            && Distance(c.data[2], 2) < Distance(c.data[0], 2)
  {
  }

  // --------------------------------------------------------- slice_left

  /** `Cache.slice_left`: `IndexError` for an index outside the buffer;
      otherwise the prefix through `index` is removed and returned. */
  function SliceLeft<P>(c: Cache<P>, index: int): (r: Result<(seq<Entry<P>>, Cache<P>), CacheError>)
    ensures r.Failure? <==> index < 0 || index >= |c.data|
    ensures r.Failure? ==> r.error == IndexOutOfRange
    ensures r.Success? ==> r.value.0 + r.value.1.data == c.data
    ensures r.Success? ==> |r.value.0| == index + 1
  {
    if index < 0 || index >= |c.data| then
      Failure(IndexOutOfRange)
    else
      Success((c.data[..index + 1], Cache(c.data[index + 1..])))
  }

  /** Slicing an ordered buffer: the last returned frame is the one at
      `index`, the remainder is still ordered, and every returned frame is no
      later than any remaining frame. */
  lemma SliceLeftKeepsOrder<P>(c: Cache<P>, index: int)
    requires NonDecreasing(c.data)
    requires 0 <= index < |c.data|
    ensures var (taken, rest) := SliceLeft(c, index).value;
            && taken[|taken| - 1] == c.data[index]
            && NonDecreasing(rest.data)
            && forall a, b :: 0 <= a < |taken| && 0 <= b < |rest.data| ==> taken[a].time <= rest.data[b].time
  {
    var (taken, rest) := SliceLeft(c, index).value;
    assert taken == c.data[..index + 1] && rest.data == c.data[index + 1..];
    forall a, b | 0 <= a < |taken| && 0 <= b < |rest.data|
      ensures taken[a].time <= rest.data[b].time
    {
      assert taken[a] == c.data[a] && rest.data[b] == c.data[index + 1 + b];
    }
  }
}

=== FILE: records.dfy ===
/** The frame-record parser (`record_to_frame` in utils.py).

    A batch of stream records arrives; only the first one is read. Its
    `Data` payload, already decoded to text, is a comma-separated,
    line-based frame: line 0 is the header, and the next
    `number_of_objects` lines describe one tracked object each. Fields are
    positional. A missing field raises `IndexError`, an unparsable number
    `ValueError`; both abort the whole parse.

    `float()` and `datetime.fromisoformat` are not modelled: they are the
    `Conversions` parameter, whose `None` is their `ValueError`. */
module Records {
  import opened Wrappers
  import opened Text

  /** One stream record; `data` is the decoded `'Data'` payload, `None` when the key is absent. */
  datatype StreamRecord = StreamRecord(data: Option<string>)

  /** `float(text)` and `datetime.fromisoformat(text)` (in microseconds). */
  datatype Conversions = Conversions(toFloat: string -> Option<real>, fromIso: string -> Option<int>)

  /** The exceptions `record_to_frame` lets escape. */
  datatype ParseError = IndexError | ValueError

  /** One object dict. */
  datatype TrackedObject = TrackedObject(
    frameCount: int, objId: int, objectClass: string,
    posX: real, posY: real, posZ: real,
    dimX: real, dimY: real, dimZ: real,
    speedMph: real, bearingDegrees: real)

  /** The frame dict; `time` is the parsed `formatted_time`. */
  datatype Frame = Frame(
    frameCount: int, timeS: string, formattedTime: string, time: int,
    numberOfObjects: int, zoneBindingsLen: int, objects: seq<TrackedObject>)

  // ------------------------------------------------------------- fields

  /** `f[k]`. */
  function Field(f: seq<string>, k: nat): (r: Result<string, ParseError>)
    ensures r.Success? <==> k < |f|
    ensures r.Success? ==> r.value == f[k]
    ensures r.Failure? ==> r.error == IndexError
  {
    if k < |f| then Success(f[k]) else Failure(IndexError)
  }

  /** Field `k` converted by `int()`: a missing field raises `IndexError`
      before any conversion is tried, a field `int()` rejects raises
      `ValueError`. */
  function IntField(f: seq<string>, k: nat): (r: Result<int, ParseError>)
    ensures k >= |f| ==> r == Failure(IndexError)
    ensures k < |f| ==> (r.Success? <==> ParseInt(f[k]).Some?)
    ensures k < |f| && r.Success? ==> r.value == ParseInt(f[k]).value
    ensures k < |f| && r.Failure? ==> r.error == ValueError
  {
    var text :- Field(f, k);
    match ParseInt(text)
    case Some(n) => Success(n)
    case None => Failure(ValueError)
  }

  /** Field `k` converted by `float()`: `IndexError` for a missing field,
      `ValueError` for one `float()` rejects. */
  function FloatField(conv: Conversions, f: seq<string>, k: nat): (r: Result<real, ParseError>)
    ensures k >= |f| ==> r == Failure(IndexError)
    ensures k < |f| ==> (r.Success? <==> conv.toFloat(f[k]).Some?)
    ensures k < |f| && r.Success? ==> r.value == conv.toFloat(f[k]).value
    ensures k < |f| && r.Failure? ==> r.error == ValueError
  {
    var text :- Field(f, k);
    match conv.toFloat(text)
    case Some(x) => Success(x)
    case None => Failure(ValueError)
  }

  /** `datetime.fromisoformat(f[k])`: `IndexError` for a missing field,
      `ValueError` for one that is not an ISO 8601 timestamp. */
  function TimeField(conv: Conversions, f: seq<string>, k: nat): (r: Result<int, ParseError>)
    ensures k >= |f| ==> r == Failure(IndexError)
    ensures k < |f| ==> (r.Success? <==> conv.fromIso(f[k]).Some?)
    ensures k < |f| && r.Success? ==> r.value == conv.fromIso(f[k]).value
    ensures k < |f| && r.Failure? ==> r.error == ValueError
  {
    var text :- Field(f, k);
    match conv.fromIso(text)
    case Some(t) => Success(t)
    case None => Failure(ValueError)
  }

  // ------------------------------------------------------------- objects

  /** Fields `i` up to but excluding `j`, each converted by `float()`, left to
      right; the first failure is the result. */
  function FloatFields(conv: Conversions, f: seq<string>, i: nat, j: nat): (r: Result<seq<real>, ParseError>)
    requires i <= j
    ensures r.Success? <==> (i < j ==> j <= |f|) && forall k :: i <= k < j ==> conv.toFloat(f[k]).Some?
    ensures r.Success? ==> |r.value| == j - i
    ensures r.Success? ==> forall k :: i <= k < j ==> r.value[k - i] == conv.toFloat(f[k]).value
    ensures r.Failure? ==> (r.error == IndexError <==> forall k :: i <= k < j && k < |f| ==> conv.toFloat(f[k]).Some?)
    decreases j - i
  {
    if i == j then
      Success([])
    else
      var x :- FloatField(conv, f, i);
      var rest :- FloatFields(conv, f, i + 1, j);
      Success([x] + rest)
  }

  /** Every numeric field of an object line that is present converts:
      fields 1 and 2 by `int()`, fields 4 to 11 by `float()`. */
  predicate ObjectFieldsValid(conv: Conversions, o: seq<string>) {
    && (1 < |o| ==> ParseInt(o[1]).Some?)
    && (2 < |o| ==> ParseInt(o[2]).Some?)
    && forall k :: 4 <= k < 12 && k < |o| ==> conv.toFloat(o[k]).Some?
  }

  /** The object dict built from one object line, its fields evaluated left to right. */
  function ParseObject(conv: Conversions, line: string): (r: Result<TrackedObject, ParseError>)
    ensures r.Success? <==> |Split(line, ',')| >= 12 && ObjectFieldsValid(conv, Split(line, ','))
    ensures r.Failure? ==> (r.error == IndexError <==> ObjectFieldsValid(conv, Split(line, ',')))
  {
    ObjectOfFields(conv, Split(line, ','))
  }

  /** The object dict from the fields of one object line. Fields are read
      in position order, so a line that is too short raises `IndexError`
      unless a field before the missing one already raised `ValueError`. */
  function ObjectOfFields(conv: Conversions, o: seq<string>): (r: Result<TrackedObject, ParseError>)
    ensures r.Success? <==> |o| >= 12 && ObjectFieldsValid(conv, o)
    ensures r.Failure? ==> (r.error == IndexError <==> ObjectFieldsValid(conv, o))
    ensures r.Success? ==>
              r.value == TrackedObject(ParseInt(o[1]).value, ParseInt(o[2]).value, o[3],
                                       conv.toFloat(o[4]).value, conv.toFloat(o[5]).value,
                                       conv.toFloat(o[6]).value, conv.toFloat(o[7]).value,
                                       conv.toFloat(o[8]).value, conv.toFloat(o[9]).value,
                                       conv.toFloat(o[10]).value, conv.toFloat(o[11]).value)
  {
    var frameCount :- IntField(o, 1);
    var objId :- IntField(o, 2);
    var objectClass :- Field(o, 3);
    var x :- FloatFields(conv, o, 4, 12);
    Success(TrackedObject(frameCount, objId, objectClass, x[0], x[1], x[2], x[3], x[4], x[5], x[6], x[7]))
  }

  /** The `for object in objects` loop: one object per line, in line order;
      the first line that fails aborts with its error. */
  function ParseObjects(conv: Conversions, lines: seq<string>): (r: Result<seq<TrackedObject>, ParseError>)
    ensures r.Success? <==> forall j :: 0 <= j < |lines| ==> ParseObject(conv, lines[j]).Success?
    ensures r.Success? ==> |r.value| == |lines|
    ensures r.Success? ==> forall j :: 0 <= j < |lines| ==> r.value[j] == ParseObject(conv, lines[j]).value
    ensures r.Failure? ==> exists j :: 0 <= j < |lines| && ParseObject(conv, lines[j]) == Failure(r.error) &&
                             forall k :: 0 <= k < j ==> ParseObject(conv, lines[k]).Success?
  {
    ParseEach(lines, line => ParseObject(conv, line))
  }

  /** Applies `parse` to each line in order, collecting the results; the
      first failure aborts with its error. */
  function ParseEach<T>(lines: seq<string>, parse: string -> Result<T, ParseError>): (r: Result<seq<T>, ParseError>)
    ensures r.Success? <==> forall j :: 0 <= j < |lines| ==> parse(lines[j]).Success?
    ensures r.Success? ==> |r.value| == |lines|
    ensures r.Success? ==> forall j :: 0 <= j < |lines| ==> r.value[j] == parse(lines[j]).value
    ensures r.Failure? ==> exists j :: 0 <= j < |lines| && parse(lines[j]) == Failure(r.error) &&
                             forall k :: 0 <= k < j ==> parse(lines[k]).Success?
  {
    if |lines| == 0 then
      Success([])
    else
      var n := |lines| - 1;
      var done :- ParseEach(lines[..n], parse);
      var item :- parse(lines[n]);
      Success(done + [item])
  }

  // ------------------------------------------------------------ slicing

  /** Python's normalisation of a slice bound: a negative bound counts from
      the end, and the result is clamped to `[0, len]`. */
  function SliceBound(i: int, len: nat): (r: nat)
    ensures r <= len
    ensures 0 <= i <= len ==> r == i
    ensures i < 0 ==> r == Max(i + len, 0)
    ensures i > len ==> r == len
  {
    if i < 0 then (if i + len < 0 then 0 else i + len)
    else if i > len then len
    else i
  }

  function Min(a: int, b: int): int {
    if a <= b then a else b
  }

  /** `lines[1:1 + count]` on a non-empty list of lines. A non-negative count
      takes the first `count` lines after the header, or all of them when
      there are fewer; -1 takes none; a count of -2 or less is a bound
      counted from the end, so the last `-1 - count` lines are skipped and
      the lines before them are still taken. */
  function ObjectLines(lines: seq<string>, count: int): (r: seq<string>)
    requires |lines| >= 1
    ensures count >= 0 ==> r == lines[1..1 + Min(count, |lines| - 1)]
    ensures count == -1 ==> r == []
    ensures count <= -2 ==> r == lines[1..1 + Max(|lines| + count, 0)]
  {
    var stop := SliceBound(1 + count, |lines|);
    if stop <= 1 then [] else lines[1..stop]
  }

  function Max(a: int, b: int): int {
    if a >= b then a else b
  }

  // --------------------------------------------------------------- frame

  /** `record_to_frame`: `None` for an empty batch or a first record without
      `Data`; otherwise the frame parsed from the first record's text. */
  function RecordToFrame(conv: Conversions, record: seq<StreamRecord>): (r: Result<Option<Frame>, ParseError>)
    ensures |record| == 0 ==> r == Success(None)
    ensures |record| > 0 && record[0].data.None? ==> r == Success(None)
    ensures |record| > 0 && record[0].data == Some("") ==> r == Failure(IndexError)
    ensures r.Success? && r.value.Some? ==> |record| > 0 && record[0].data.Some?
    ensures |record| > 0 && record[0].data.Some? ==>
              var frame := ParseFrame(conv, record[0].data.value);
              && (r.Success? <==> frame.Success?)
              && (frame.Success? ==> r.value == Some(frame.value))
              && (frame.Failure? ==> r.error == frame.error)
  {
    if |record| == 0 then
      Success(None)
    else
      match record[0].data
      case None => Success(None)
      case Some(text) =>
        var frame :- ParseFrame(conv, text);
        Success(Some(frame))
  }

  /** The header fields of line 0, without the object list. */
  datatype Header = Header(frameCount: int, timeS: string, formattedTime: string, time: int,
                           numberOfObjects: int, zoneBindingsLen: int)

  /** Every converted field of the header line that is present converts:
      fields 1, 4 and 5 by `int()`, field 3 by `fromisoformat`. */
  predicate HeaderFieldsValid(conv: Conversions, f: seq<string>) {
    && (1 < |f| ==> ParseInt(f[1]).Some?)
    && (3 < |f| ==> conv.fromIso(f[3]).Some?)
    && (4 < |f| ==> ParseInt(f[4]).Some?)
    && (5 < |f| ==> ParseInt(f[5]).Some?)
  }

  /** The header part of the frame dict built in `record_to_frame`, from line 0,
      its fields evaluated left to right. */
  function ParseHeader(conv: Conversions, line: string): (r: Result<Header, ParseError>)
    ensures r.Success? <==> |Split(line, ',')| >= 6 && HeaderFieldsValid(conv, Split(line, ','))
    ensures r.Failure? ==> (r.error == IndexError <==> HeaderFieldsValid(conv, Split(line, ',')))
  {
    HeaderOfFields(conv, Split(line, ','))
  }

  /** The header from the fields of line 0. A line with too few fields raises
      `IndexError` unless a field before the missing one already raised
      `ValueError`. */
  function HeaderOfFields(conv: Conversions, f: seq<string>): (r: Result<Header, ParseError>)
    ensures r.Success? <==> |f| >= 6 && HeaderFieldsValid(conv, f)
    ensures r.Failure? ==> (r.error == IndexError <==> HeaderFieldsValid(conv, f))
    ensures r.Success? ==>
              r.value == Header(ParseInt(f[1]).value, f[2], f[3], conv.fromIso(f[3]).value,
                                ParseInt(f[4]).value, ParseInt(f[5]).value)
  {
    var frameCount :- IntField(f, 1);
    var timeS :- Field(f, 2);
    var formattedTime :- Field(f, 3);
    var time :- TimeField(conv, f, 3);
    var numberOfObjects :- IntField(f, 4);
    var zoneBindingsLen :- IntField(f, 5);
    Success(Header(frameCount, timeS, formattedTime, time, numberOfObjects, zoneBindingsLen))
  }

  /** The body of `record_to_frame` once the text is decoded: split into
      lines, parse the header line, then the object lines. */
  function ParseFrame(conv: Conversions, text: string): (r: Result<Frame, ParseError>)
    ensures |text| == 0 ==> r == Failure(IndexError)
    ensures |SplitLines(text)| == 0 ==> r == Failure(IndexError)
    ensures r.Success? ==> |SplitLines(text)| > 0
    // A header line that fails aborts the parse with its error.
    ensures |SplitLines(text)| > 0 && ParseHeader(conv, SplitLines(text)[0]).Failure? ==>
              r == Failure(ParseHeader(conv, SplitLines(text)[0]).error)
    // So does an object line that fails, once the header has parsed.
    ensures |SplitLines(text)| > 0 && ParseHeader(conv, SplitLines(text)[0]).Success? ==>
              var h := ParseHeader(conv, SplitLines(text)[0]).value;
              var objects := ParseObjects(conv, ObjectLines(SplitLines(text), h.numberOfObjects));
              objects.Failure? ==> r == Failure(objects.error)
    ensures r.Success? ==> |r.value.objects| == |ObjectLines(SplitLines(text), r.value.numberOfObjects)|
    ensures |SplitLines(text)| > 0 && ParseHeader(conv, SplitLines(text)[0]).Success? ==>
              var h := ParseHeader(conv, SplitLines(text)[0]).value;
              var objects := ParseObjects(conv, ObjectLines(SplitLines(text), h.numberOfObjects));
              objects.Success? ==>
                r == Success(Frame(h.frameCount, h.timeS, h.formattedTime, h.time,
                                   h.numberOfObjects, h.zoneBindingsLen, objects.value))
  {
    var lines := SplitLines(text);
    if |lines| == 0 then
      Failure(IndexError)
    else
      var h :- ParseHeader(conv, lines[0]);
      var objects :- ParseObjects(conv, ObjectLines(lines, h.numberOfObjects));
      Success(Frame(h.frameCount, h.timeS, h.formattedTime, h.time,
                    h.numberOfObjects, h.zoneBindingsLen, objects))
  }

  /** Only the first record of the batch is consulted. */
  lemma OnlyFirstRecordRead(conv: Conversions, first: StreamRecord, rest: seq<StreamRecord>)
    ensures RecordToFrame(conv, [first] + rest) == RecordToFrame(conv, [first])
  {
  }

  // ------------------------------------------------------------ the wire

  /** The text of one object line: a leading field, then the fields parsed. */
  datatype ObjectRow = ObjectRow(lead: string, frameCount: int, objId: int,
                                 objectClass: string, numbers: seq<string>)

  /** The text of a whole frame: the header's fields and the object lines. */
  datatype FrameText = FrameText(lead: string, frameCount: int, timeS: string, formattedTime: string,
                                 numberOfObjects: int, zoneBindingsLen: int, rows: seq<ObjectRow>,
                                 eol: string, finalEol: bool)

  /** A field that neither splits the line nor ends it. */
  predicate Clean(s: string) {
    ',' !in s && NoLineBreak(s)
  }

  function RowFields(o: ObjectRow): seq<string> {
    [o.lead, IntToString(o.frameCount), IntToString(o.objId), o.objectClass] + o.numbers
  }

  function HeaderFields(w: FrameText): seq<string> {
    [w.lead, IntToString(w.frameCount), w.timeS, w.formattedTime,
     IntToString(w.numberOfObjects), IntToString(w.zoneBindingsLen)]
  }

  function EncodeRows(rows: seq<ObjectRow>): (r: seq<string>)
    ensures |r| == |rows|
    ensures forall j :: 0 <= j < |rows| ==> r[j] == Join(RowFields(rows[j]), ',')
  {
    if |rows| == 0 then [] else [Join(RowFields(rows[0]), ',')] + EncodeRows(rows[1..])
  }

  /** The lines of the record text: the header line, then one line per row. */
  function TextLines(w: FrameText): seq<string> {
    [Join(HeaderFields(w), ',')] + EncodeRows(w.rows)
  }

  /** The record text: its lines separated by the line ending `w.eol`, and
      the last line ended by it only when `w.finalEol` holds. */
  function Encode(w: FrameText): string {
    var lines := TextLines(w);
    if w.finalEol then Unlines(lines, w.eol)
    else Unlines(lines[..|lines| - 1], w.eol) + lines[|lines| - 1]
  }

  /** A row stays on its own line. */
  predicate RowOnOneLine(o: ObjectRow) {
    && NoLineBreak(o.lead) && NoLineBreak(o.objectClass)
    && forall k :: 0 <= k < |o.numbers| ==> NoLineBreak(o.numbers[k])
  }

  /** A row whose fields land in their positions and all convert. */
  predicate RowParses(conv: Conversions, o: ObjectRow) {
    && Clean(o.lead) && Clean(o.objectClass) && |o.numbers| == 8
    && forall k :: 0 <= k < 8 ==> Clean(o.numbers[k]) && conv.toFloat(o.numbers[k]).Some?
  }

  function DecodeRow(conv: Conversions, o: ObjectRow): TrackedObject
    requires RowParses(conv, o)
  {
    TrackedObject(o.frameCount, o.objId, o.objectClass,
                  conv.toFloat(o.numbers[0]).value, conv.toFloat(o.numbers[1]).value,
                  conv.toFloat(o.numbers[2]).value, conv.toFloat(o.numbers[3]).value,
                  conv.toFloat(o.numbers[4]).value, conv.toFloat(o.numbers[5]).value,
                  conv.toFloat(o.numbers[6]).value, conv.toFloat(o.numbers[7]).value)
  }

  function DecodeRows(conv: Conversions, rows: seq<ObjectRow>): (r: seq<TrackedObject>)
    requires forall j :: 0 <= j < |rows| ==> RowParses(conv, rows[j])
    ensures |r| == |rows|
    ensures forall j :: 0 <= j < |rows| ==> r[j] == DecodeRow(conv, rows[j])
  {
    if |rows| == 0 then [] else [DecodeRow(conv, rows[0])] + DecodeRows(conv, rows[1..])
  }

  /** A field written by `str(n)` reads back as `n`. */
  lemma IntFieldOfString(f: seq<string>, k: nat, n: int)
    requires k < |f| && f[k] == IntToString(n)
    ensures IntField(f, k) == Success(n)
  {
    ParseIntToString(n);
  }

  /** The positions of a row's fields. */
  lemma RowFieldsAt(o: ObjectRow)
    ensures |RowFields(o)| == 4 + |o.numbers|
    ensures RowFields(o)[1] == IntToString(o.frameCount) && RowFields(o)[2] == IntToString(o.objId)
    ensures RowFields(o)[3] == o.objectClass
    ensures forall k :: 0 <= k < |o.numbers| ==> RowFields(o)[4 + k] == o.numbers[k]
  {
  }

  /** The fields of a row convert to the row's values. */
  lemma RowFieldsConvert(conv: Conversions, o: ObjectRow)
    requires RowParses(conv, o)
    ensures ObjectOfFields(conv, RowFields(o)) == Success(DecodeRow(conv, o))
  {
    var f := RowFields(o);
    RowFieldsAt(o);
    IntFieldOfString(f, 1, o.frameCount);
    IntFieldOfString(f, 2, o.objId);
  }

  /** An encoded object line parses back to the row's values. */
  lemma ParseEncodedRow(conv: Conversions, o: ObjectRow)
    requires RowParses(conv, o)
    ensures ParseObject(conv, Join(RowFields(o), ',')) == Success(DecodeRow(conv, o))
  {
    var f := RowFields(o);
    IntToStringIsClean(o.frameCount);
    IntToStringIsClean(o.objId);
    assert forall j :: 0 <= j < |f| ==> ',' !in f[j];
    SplitJoin(f, ',');
    RowFieldsConvert(conv, o);
  }

  /** No line of an encoded frame holds a line break. */
  lemma TextLinesOnOneLine(w: FrameText)
    requires Clean(w.lead) && Clean(w.timeS) && Clean(w.formattedTime)
    requires forall j :: 0 <= j < |w.rows| ==> RowOnOneLine(w.rows[j])
    ensures forall j :: 0 <= j < |TextLines(w)| ==> NoLineBreak(TextLines(w)[j])
  {
    IntToStringIsClean(w.frameCount);
    IntToStringIsClean(w.numberOfObjects);
    IntToStringIsClean(w.zoneBindingsLen);
    JoinNoLineBreak(HeaderFields(w), ',');
    forall j | 0 <= j < |w.rows|
      ensures NoLineBreak(Join(RowFields(w.rows[j]), ','))
    {
      IntToStringIsClean(w.rows[j].frameCount);
      IntToStringIsClean(w.rows[j].objId);
      JoinNoLineBreak(RowFields(w.rows[j]), ',');
    }
  }

  /** Every line of an encoded frame joins at least two fields, so none is
      empty. */
  lemma TextLinesNonEmpty(w: FrameText)
    ensures forall j :: 0 <= j < |TextLines(w)| ==> TextLines(w)[j] != ""
  {
    forall j | 0 <= j < |TextLines(w)|
      ensures TextLines(w)[j] != ""
    {
      if j == 0 {
        assert TextLines(w)[j] == Join(HeaderFields(w), ',');
      } else {
        assert TextLines(w)[j] == Join(RowFields(w.rows[j - 1]), ',');
      }
    }
  }

  /** The lines of an encoded frame are its header line and its row lines,
      whichever line ending it uses and whether or not the last line is
      ended. */
  lemma EncodedLines(w: FrameText)
    requires IsLineEnd(w.eol)
    requires Clean(w.lead) && Clean(w.timeS) && Clean(w.formattedTime)
    requires forall j :: 0 <= j < |w.rows| ==> RowOnOneLine(w.rows[j])
    ensures SplitLines(Encode(w)) == TextLines(w)
  {
    TextLinesOnOneLine(w);
    var lines := TextLines(w);
    var n := |lines| - 1;
    if w.finalEol {
      assert Encode(w) == Unlines(lines, w.eol) + "";
    } else {
      TextLinesNonEmpty(w);
      assert Encode(w) == Unlines(lines[..n], w.eol) + lines[n];
    }
    LinesOfText(lines, w.eol, w.finalEol);
  }

  /** The header fields of an encoded frame convert to its values. */
  lemma HeaderFieldsConvert(conv: Conversions, w: FrameText)
    requires conv.fromIso(w.formattedTime).Some?
    ensures HeaderOfFields(conv, HeaderFields(w)) ==
            Success(Header(w.frameCount, w.timeS, w.formattedTime, conv.fromIso(w.formattedTime).value,
                           w.numberOfObjects, w.zoneBindingsLen))
  {
    var f := HeaderFields(w);
    IntFieldOfString(f, 1, w.frameCount);
    IntFieldOfString(f, 4, w.numberOfObjects);
    IntFieldOfString(f, 5, w.zoneBindingsLen);
  }

  /** The object lines `record_to_frame` selects from an encoded frame are
      the first `min(number_of_objects, rows)` row lines. */
  lemma EncodedObjectLines(w: FrameText)
    requires w.numberOfObjects >= 0
    ensures ObjectLines(TextLines(w), w.numberOfObjects) == EncodeRows(w.rows[..Min(w.numberOfObjects, |w.rows|)])
  {
    var n := Min(w.numberOfObjects, |w.rows|);
    var rows := EncodeRows(w.rows);
    var prefix := EncodeRows(w.rows[..n]);
    assert forall j :: 0 <= j < n ==> prefix[j] == rows[j];
  }

  /** The header line of an encoded frame parses back to its values. */
  lemma ParseEncodedHeader(conv: Conversions, w: FrameText)
    requires Clean(w.lead) && Clean(w.timeS) && Clean(w.formattedTime)
    requires conv.fromIso(w.formattedTime).Some?
    ensures ParseHeader(conv, Join(HeaderFields(w), ',')) ==
            Success(Header(w.frameCount, w.timeS, w.formattedTime, conv.fromIso(w.formattedTime).value,
                           w.numberOfObjects, w.zoneBindingsLen))
  {
    var f := HeaderFields(w);
    IntToStringIsClean(w.frameCount);
    IntToStringIsClean(w.numberOfObjects);
    IntToStringIsClean(w.zoneBindingsLen);
    SplitJoin(f, ',');
    HeaderFieldsConvert(conv, w);
  }

  /** Encoded rows that all parse come back decoded, in order. */
  lemma ParseEncodedRows(conv: Conversions, rows: seq<ObjectRow>)
    requires forall j :: 0 <= j < |rows| ==> RowParses(conv, rows[j])
    ensures ParseObjects(conv, EncodeRows(rows)) == Success(DecodeRows(conv, rows))
  {
    var lines := EncodeRows(rows);
    forall j | 0 <= j < |rows|
      ensures ParseObject(conv, lines[j]) == Success(DecodeRow(conv, rows[j]))
    {
      ParseEncodedRow(conv, rows[j]);
    }
    var r := ParseObjects(conv, lines);
    assert r.Success?;
    assert r.value == DecodeRows(conv, rows);
  }

  /** The first `n` rows, decoded in order. */
  function DecodeFirst(conv: Conversions, rows: seq<ObjectRow>, n: nat): seq<TrackedObject>
    requires n <= |rows|
    requires forall j :: 0 <= j < n ==> RowParses(conv, rows[j])
  {
    assert forall j :: 0 <= j < n ==> rows[..n][j] == rows[j];
    DecodeRows(conv, rows[..n])
  }

  /** Line 0 of an encoded frame's text parses to the frame's header values. */
  lemma EncodedHeaderLine(conv: Conversions, w: FrameText)
    requires IsLineEnd(w.eol)
    requires Clean(w.lead) && Clean(w.timeS) && Clean(w.formattedTime)
    requires conv.fromIso(w.formattedTime).Some?
    requires forall j :: 0 <= j < |w.rows| ==> RowOnOneLine(w.rows[j])
    ensures |SplitLines(Encode(w))| > 0
    ensures ParseHeader(conv, SplitLines(Encode(w))[0]) ==
            Success(Header(w.frameCount, w.timeS, w.formattedTime, conv.fromIso(w.formattedTime).value,
                           w.numberOfObjects, w.zoneBindingsLen))
  {
    EncodedLines(w);
    ParseEncodedHeader(conv, w);
  }

  /** The object lines selected from an encoded frame's text parse to the
      first `min(number_of_objects, rows)` rows, decoded in order. */
  lemma EncodedObjectsParse(conv: Conversions, w: FrameText)
    requires IsLineEnd(w.eol)
    requires w.numberOfObjects >= 0
    requires Clean(w.lead) && Clean(w.timeS) && Clean(w.formattedTime)
    requires forall j :: 0 <= j < |w.rows| ==> RowOnOneLine(w.rows[j])
    requires forall j :: 0 <= j < Min(w.numberOfObjects, |w.rows|) ==> RowParses(conv, w.rows[j])
    ensures |SplitLines(Encode(w))| > 0
    ensures ParseObjects(conv, ObjectLines(SplitLines(Encode(w)), w.numberOfObjects)) ==
            Success(DecodeFirst(conv, w.rows, Min(w.numberOfObjects, |w.rows|)))
  {
    var rows := w.rows[..Min(w.numberOfObjects, |w.rows|)];
    EncodedLines(w);
    EncodedObjectLines(w);
    assert forall j :: 0 <= j < |rows| ==> RowParses(conv, rows[j]);
    ParseEncodedRows(conv, rows);
  }

  /** Encoding a frame and parsing the record gives back its header values and
      the first `min(number_of_objects, rows)` rows, decoded in order; rows
      after those are never read, and the leading field of every line is
      ignored. */
  lemma ParseEncodedFrame(conv: Conversions, w: FrameText)
    requires IsLineEnd(w.eol)
    requires w.numberOfObjects >= 0
    requires Clean(w.lead) && Clean(w.timeS) && Clean(w.formattedTime)
    requires conv.fromIso(w.formattedTime).Some?
    requires forall j :: 0 <= j < |w.rows| ==> RowOnOneLine(w.rows[j])
    requires forall j :: 0 <= j < Min(w.numberOfObjects, |w.rows|) ==> RowParses(conv, w.rows[j])
    ensures RecordToFrame(conv, [StreamRecord(Some(Encode(w)))]) ==
            Success(Some(Frame(w.frameCount, w.timeS, w.formattedTime, conv.fromIso(w.formattedTime).value,
                               w.numberOfObjects, w.zoneBindingsLen,
                               DecodeFirst(conv, w.rows, Min(w.numberOfObjects, |w.rows|)))))
  {
    EncodedHeaderLine(conv, w);
    EncodedObjectsParse(conv, w);
  }
}

=== FILE: synchronization.dfy ===
/** The alignment engine (`SynchronizationManager` in sync.py): one pass of
    its main loop pops the earliest base frame, takes the closest frame out
    of every other cache, checks the skew and records the aligned tuple.

    `caches[0]` is the base cache, as the system wires it up
    (`SynchronizationManager(caches[0], caches)`); the other caches are
    matched in list order. The event flags are plain booleans and the busy
    wait of `wait_for_data` becomes the precondition `CanStep`. */
module Synchronization {
  import opened Wrappers
  import opened Caches

  /** The 0.2 s skew limit, in microseconds. */
  const MaxSkew: nat := 200000

  /** One `synced_entry` dict: key `i` stands for the string `'cache{i}'`. */
  type SyncedEntry<P> = map<nat, Entry<P>>

  /** The manager's state: its caches, `synced_data`, and the two events. */
  datatype Manager<P> = Manager(caches: seq<Cache<P>>, synced: seq<SyncedEntry<P>>,
                                newData: bool, stopRequested: bool)

  /** The `ValueError` of `validate_time_diff`, with the offending distance. */
  datatype SkewExceeded = SkewExceeded(diff: nat)

  /** How one pass of the `while` loop ends, with the state it leaves. */
  datatype StepOutcome<P> =
    | Stopped(state: Manager<P>)                      // stop_event set: the loop exits
    | Waiting(state: Manager<P>)                      // new_data_event not set: nothing happens
    | NoEntry(state: Manager<P>)                      // base cache empty: event cleared, continue
    | Aligned(state: Manager<P>)                      // a synced entry was appended
    | Aborted(state: Manager<P>, error: SkewExceeded) // the ValueError escapes the loop

  // ---------------------------------------------------------- wait_for_data

  /** The exit condition of `wait_for_data`: the cache holds a frame at or
      after `t`. */
  predicate Ready<P>(c: Cache<P>, t: Micros) {
    var data := GetAll(c);
    |data| > 0 && data[|data| - 1].time >= t
  }

  /** On an ordered cache, `wait_for_data` can return exactly when some
      stored frame is at or after `t`: looking at the last frame suffices. */
  lemma ReadyMeansFrameAtOrAfter<P>(c: Cache<P>, t: Micros)
    requires NonDecreasing(c.data)
    ensures Ready(c, t) <==> exists k :: 0 <= k < |c.data| && c.data[k].time >= t
  {
    if k :| 0 <= k < |c.data| && c.data[k].time >= t {
      assert c.data[k].time <= c.data[|c.data| - 1].time;
    }
  }

  /** The waits of the pass have returned: if the pass pops a base frame,
      every other cache is ready for its timestamp. */
  predicate CanStep<P>(m: Manager<P>) {
    && |m.caches| >= 1
    && (m.newData && !m.stopRequested && |m.caches[0].data| > 0 ==>
          forall i :: 1 <= i < |m.caches| ==> Ready(m.caches[i], m.caches[0].data[0].time))
  }

  /** A ready cache always has a closest index, so `slice_left` never
      receives `None`. */
  lemma ReadyHasClosest<P>(c: Cache<P>, t: Micros)
    requires Ready(c, t)
    ensures FindClosestIndex(c, t).Some?
    ensures FindClosestIndex(c, t).value < |c.data|
  {
  }

  // -------------------------------------------------------- process_entries

  /** The index `find_closest_index` returns on a non-empty cache. */
  function Closest<P>(c: Cache<P>, t: Micros): (k: nat)
    requires |c.data| > 0
    ensures k < |c.data|
  {
    FindClosestIndex(c, t).value
  }

  /** One iteration of `process_entries`: slice the cache through its closest
      index and keep the last sliced frame. */
  function MatchOne<P>(c: Cache<P>, t: Micros): (r: (Entry<P>, Cache<P>))
    requires |c.data| > 0
    ensures r.0 == c.data[Closest(c, t)]
    ensures r.1.data == c.data[Closest(c, t) + 1..]
  {
    var sliced := SliceLeft(c, Closest(c, t)).value;
    (sliced.0[|sliced.0| - 1], sliced.1)
  }

  /** `process_entries`: one closest frame per cache of `caches[1:]`, in
      order; each such cache loses exactly the prefix through its closest
      index, and `caches[0]` is left alone. */
  function ProcessEntries<P>(caches: seq<Cache<P>>, t: Micros): (r: (seq<Entry<P>>, seq<Cache<P>>))
    requires forall i :: 1 <= i < |caches| ==> |caches[i].data| > 0
    ensures |r.0| == (if |caches| == 0 then 0 else |caches| - 1)
    ensures |r.1| == |caches|
    ensures |caches| > 0 ==> r.1[0] == caches[0]
    ensures forall i :: 1 <= i < |caches| ==>
              r.0[i - 1] == caches[i].data[Closest(caches[i], t)] &&
              r.1[i].data == caches[i].data[Closest(caches[i], t) + 1..]
  {
    if |caches| <= 1 then
      ([], caches)
    else
      var n := |caches| - 1;
      assert forall i :: 0 <= i < n ==> caches[..n][i] == caches[i];
      var (closest, rest) := ProcessEntries(caches[..n], t);
      var (entry, sliced) := MatchOne(caches[n], t);
      MatchesExtend(caches, t, closest, rest);
      (closest + [entry], rest + [sliced])
  }

  /** The matches of all caches but the last, extended by the match of the
      last cache, are the matches of all caches. */
  lemma MatchesExtend<P>(caches: seq<Cache<P>>, t: Micros, closest: seq<Entry<P>>, rest: seq<Cache<P>>)
    requires |caches| >= 2
    requires forall i :: 1 <= i < |caches| ==> |caches[i].data| > 0
    requires |closest| == |caches| - 2 && |rest| == |caches| - 1
    requires forall i :: 1 <= i < |caches| - 1 ==>
               closest[i - 1] == caches[i].data[Closest(caches[i], t)] &&
               rest[i].data == caches[i].data[Closest(caches[i], t) + 1..]
    ensures var n := |caches| - 1;
            var (entry, sliced) := MatchOne(caches[n], t);
            forall i :: 1 <= i < |caches| ==>
              (closest + [entry])[i - 1] == caches[i].data[Closest(caches[i], t)] &&
              (rest + [sliced])[i].data == caches[i].data[Closest(caches[i], t) + 1..]
  {
  }

  // ------------------------------------------------------ validate_time_diff

  /** `validate_time_diff`: succeeds exactly when every matched frame lies
      within `MaxSkew` of the base frame (a distance of exactly 0.2 s passes);
      otherwise reports the first offending distance. */
  function ValidateTimeDiff<P>(base: Entry<P>, closest: seq<Entry<P>>): (r: Result<(), SkewExceeded>)
    ensures r.Success? <==> forall i :: 0 <= i < |closest| ==> Distance(closest[i], base.time) <= MaxSkew
    ensures r.Failure? ==> exists i :: 0 <= i < |closest| && FirstViolation(base, closest, i) &&
                                      r.error.diff == Distance(closest[i], base.time)
  {
    ValidateFrom(base, closest, 0)
  }

  /** `closest[i]` is out of tolerance and every frame before it is within. */
  ghost predicate FirstViolation<P>(base: Entry<P>, closest: seq<Entry<P>>, i: nat)
    requires i < |closest|
  {
    && Distance(closest[i], base.time) > MaxSkew
    && forall j :: 0 <= j < i ==> Distance(closest[j], base.time) <= MaxSkew
  }

  /** The `for entry in closest_entries` loop from position `i` on. */
  function ValidateFrom<P>(base: Entry<P>, closest: seq<Entry<P>>, i: nat): (r: Result<(), SkewExceeded>)
    requires i <= |closest|
    requires forall j :: 0 <= j < i ==> Distance(closest[j], base.time) <= MaxSkew
    ensures r.Success? <==> forall k :: i <= k < |closest| ==> Distance(closest[k], base.time) <= MaxSkew
    ensures r.Failure? ==> exists k :: i <= k < |closest| && FirstViolation(base, closest, k) &&
                                      r.error.diff == Distance(closest[k], base.time)
    decreases |closest| - i
  {
    if i == |closest| then
      Success(())
    else
      var timeDiff := Distance(closest[i], base.time);
      if timeDiff > MaxSkew then
        Failure(SkewExceeded(timeDiff))
      else
        ValidateFrom(base, closest, i + 1)
  }

  // ------------------------------------------------ synchronize_and_process

  /** The `synced_entry` dict: `cache0` is the base frame, `cache{i}` the
      `i`-th matched frame. */
  function MakeSyncedEntry<P>(base: Entry<P>, closest: seq<Entry<P>>): (r: SyncedEntry<P>)
    ensures forall i: nat :: i in r <==> i <= |closest|
    ensures r[0] == base
    ensures forall i :: 1 <= i <= |closest| ==> r[i] == closest[i - 1]
  {
    MatchedKeys(closest)[0 := base]
  }

  /** The matched part of the synced entry, built in `synchronize_and_process`
      before the base frame is added: one key per matched frame, numbered
      from 1 in cache order. */
  function MatchedKeys<P>(closest: seq<Entry<P>>): (r: SyncedEntry<P>)
    ensures forall i :: i in r <==> 1 <= i <= |closest|
    ensures forall i :: 1 <= i <= |closest| ==> r[i] == closest[i - 1]
  {
    if |closest| == 0 then map[]
    else MatchedKeys(closest[..|closest| - 1])[|closest| := closest[|closest| - 1]]
  }

  /** The base frame a pass pops: the head of `caches[0]`. */
  function Head<P>(m: Manager<P>): Entry<P>
    requires |m.caches| >= 1 && |m.caches[0].data| > 0
  {
    m.caches[0].data[0]
  }

  /** The frame cache `i` offers for the base frame: its closest one. */
  function MatchOf<P>(m: Manager<P>, i: nat): Entry<P>
    requires |m.caches| >= 1 && |m.caches[0].data| > 0
    requires 1 <= i < |m.caches| && |m.caches[i].data| > 0
  {
    m.caches[i].data[Closest(m.caches[i], Head(m).time)]
  }

  /** Every non-base cache is non-empty and its closest frame lies within the
      skew limit of the base frame. */
  ghost predicate AllWithinSkew<P>(m: Manager<P>)
    requires |m.caches| >= 1 && |m.caches[0].data| > 0
  {
    forall i :: 1 <= i < |m.caches| ==>
      |m.caches[i].data| > 0 && Distance(MatchOf(m, i), Head(m).time) <= MaxSkew
  }

  /** Cache `i` is the first non-base cache whose closest frame lies beyond
      the skew limit of the base frame. */
  ghost predicate FirstBeyondSkew<P>(m: Manager<P>, i: nat)
    requires |m.caches| >= 1 && |m.caches[0].data| > 0
    requires forall k :: 1 <= k < |m.caches| ==> |m.caches[k].data| > 0
  {
    && 1 <= i < |m.caches|
    && Distance(MatchOf(m, i), Head(m).time) > MaxSkew
    && forall k :: 1 <= k < i ==> Distance(MatchOf(m, k), Head(m).time) <= MaxSkew
  }

  /** The first half of a pass that finds a base frame: pop it, then run
      `process_entries` on the other caches. */
  function PopAndMatch<P>(m: Manager<P>): (r: (seq<Entry<P>>, seq<Cache<P>>))
    requires |m.caches| >= 1 && |m.caches[0].data| > 0
    requires forall i :: 1 <= i < |m.caches| ==> |m.caches[i].data| > 0
    ensures |r.0| == |m.caches| - 1 && |r.1| == |m.caches|
    ensures r.1[0].data == m.caches[0].data[1..]
    ensures forall i :: 1 <= i < |m.caches| ==>
              r.0[i - 1] == MatchOf(m, i) &&
              r.1[i].data == m.caches[i].data[Closest(m.caches[i], Head(m).time) + 1..]
  {
    var popped := m.caches[0 := PopFirst(m.caches[0]).1];
    assert forall i :: 1 <= i < |m.caches| ==> popped[i] == m.caches[i];
    ProcessEntries(popped, Head(m).time)
  }

  /** The matches pass validation exactly when every cache's closest frame is
      within the skew limit. */
  lemma ValidationMatchesSkew<P>(m: Manager<P>)
    requires |m.caches| >= 1 && |m.caches[0].data| > 0
    requires forall i :: 1 <= i < |m.caches| ==> |m.caches[i].data| > 0
    ensures ValidateTimeDiff(Head(m), PopAndMatch(m).0).Success? <==> AllWithinSkew(m)
  {
    var closest := PopAndMatch(m).0;
    if ValidateTimeDiff(Head(m), closest).Success? {
      forall i | 1 <= i < |m.caches|
        ensures Distance(MatchOf(m, i), Head(m).time) <= MaxSkew
      {
        assert closest[i - 1] == MatchOf(m, i);
      }
    } else {
      var j :| 0 <= j < |closest| && Distance(closest[j], Head(m).time) > MaxSkew;
      assert closest[j] == MatchOf(m, j + 1);
    }
  }

  /** A failed validation reports the distance of the first cache, in list
      order, whose closest frame is beyond the skew limit. */
  lemma ValidationReportsFirstBeyondSkew<P>(m: Manager<P>)
    requires |m.caches| >= 1 && |m.caches[0].data| > 0
    requires forall i :: 1 <= i < |m.caches| ==> |m.caches[i].data| > 0
    ensures var v := ValidateTimeDiff(Head(m), PopAndMatch(m).0);
            v.Failure? ==> exists i :: FirstBeyondSkew(m, i) && v.error.diff == Distance(MatchOf(m, i), Head(m).time)
  {
    var closest := PopAndMatch(m).0;
    var v := ValidateTimeDiff(Head(m), closest);
    if v.Failure? {
      var j :| 0 <= j < |closest| && FirstViolation(Head(m), closest, j) &&
               v.error.diff == Distance(closest[j], Head(m).time);
      assert closest[j] == MatchOf(m, j + 1);
      assert forall k :: 1 <= k < j + 1 ==> closest[k - 1] == MatchOf(m, k);
      assert FirstBeyondSkew(m, j + 1);
    }
  }

  /** The rest of a pass that has popped a base frame: match, validate,
      record. */
  function Align<P>(m: Manager<P>): (r: StepOutcome<P>)
    requires |m.caches| >= 1 && |m.caches[0].data| > 0
    requires forall i :: 1 <= i < |m.caches| ==> |m.caches[i].data| > 0
    ensures r.Aligned? || r.Aborted?
    ensures r.Aligned? <==> AllWithinSkew(m)
    ensures !r.state.newData && r.state.stopRequested == m.stopRequested
    ensures r.state.caches == PopAndMatch(m).1
    ensures r.Aborted? ==> r.state.synced == m.synced
    ensures r.Aborted? ==> exists i :: FirstBeyondSkew(m, i) && r.error.diff == Distance(MatchOf(m, i), Head(m).time)
    ensures r.Aligned? ==> r.state.synced == m.synced + [MakeSyncedEntry(Head(m), PopAndMatch(m).0)]
  {
    var (closest, caches) := PopAndMatch(m);
    ValidationMatchesSkew(m);
    ValidationReportsFirstBeyondSkew(m);
    var after := m.(newData := false, caches := caches);
    match ValidateTimeDiff(Head(m), closest)
    case Failure(err) => Aborted(after, err)
    case Success(_) => Aligned(after.(synced := m.synced + [MakeSyncedEntry(Head(m), closest)]))
  }

  /** What `Align` leaves behind, cache by cache and key by key. */
  lemma AlignedState<P>(m: Manager<P>)
    requires |m.caches| >= 1 && |m.caches[0].data| > 0
    requires forall i :: 1 <= i < |m.caches| ==> |m.caches[i].data| > 0
    ensures var r := Align(m);
            && |r.state.caches| == |m.caches|
            && r.state.caches[0].data == m.caches[0].data[1..]
            && forall i :: 1 <= i < |m.caches| ==>
                 r.state.caches[i].data == m.caches[i].data[Closest(m.caches[i], Head(m).time) + 1..]
    ensures var r := Align(m);
            r.Aligned? ==>
              && |r.state.synced| == |m.synced| + 1
              && r.state.synced[..|m.synced|] == m.synced
              && var s := r.state.synced[|m.synced|];
                 && (forall i: nat :: i in s <==> i < |m.caches|)
                 && s[0] == Head(m)
                 && forall i :: 1 <= i < |m.caches| ==> s[i] == MatchOf(m, i)
  {
    SyncedEntryOfMatches(m, PopAndMatch(m).0);
    var r := Align(m);
    if r.Aligned? {
      var e := MakeSyncedEntry(Head(m), PopAndMatch(m).0);
      assert r.state.synced == m.synced + [e];
      assert r.state.synced[..|m.synced|] == m.synced;
    }
  }

  /** The entry a pass records maps `cache0` to the base frame and
      `cache{i}` to cache `i`'s closest frame, and has no other key. */
  lemma SyncedEntryOfMatches<P>(m: Manager<P>, closest: seq<Entry<P>>)
    requires |m.caches| >= 1 && |m.caches[0].data| > 0
    requires forall i :: 1 <= i < |m.caches| ==> |m.caches[i].data| > 0
    requires |closest| == |m.caches| - 1
    requires forall i :: 1 <= i < |m.caches| ==> closest[i - 1] == MatchOf(m, i)
    ensures var s := MakeSyncedEntry(Head(m), closest);
            && (forall i: nat :: i in s <==> i < |m.caches|)
            && s[0] == Head(m)
            && forall i :: 1 <= i < |m.caches| ==> s[i] == MatchOf(m, i)
  {
    var s := MakeSyncedEntry(Head(m), closest);
    forall i | 1 <= i < |m.caches|
      ensures s[i] == MatchOf(m, i)
    {
      assert s[i] == closest[i - 1];
    }
  }

  /** One pass of the main loop of `synchronize_and_process`. */
  function Step<P>(m: Manager<P>): (r: StepOutcome<P>)
    requires CanStep(m)
    // The log only ever grows, and by one entry at its end.
    ensures r.state.synced == m.synced ||
            (r.Aligned? && |r.state.synced| == |m.synced| + 1 && r.state.synced[..|m.synced|] == m.synced)
    ensures !r.Aligned? ==> r.state.synced == m.synced
    // Without the event (or with a stop request) nothing changes.
    ensures m.stopRequested ==> r == Stopped(m)
    ensures !m.stopRequested && !m.newData ==> r == Waiting(m)
    // An empty base cache only clears the event.
    ensures !m.stopRequested && m.newData && |m.caches[0].data| == 0 ==> r == NoEntry(m.(newData := false))
    // An entry is recorded exactly when a base frame is popped and every match is within the skew limit.
    ensures r.Aligned? <==> !m.stopRequested && m.newData && |m.caches[0].data| > 0 && AllWithinSkew(m)
    // A pass that pops a base frame and finds a match beyond the limit aborts,
    // reporting the distance of the first such match.
    ensures r.Aborted? <==> !m.stopRequested && m.newData && |m.caches[0].data| > 0 && !AllWithinSkew(m)
    ensures r.Aborted? ==>
              && |m.caches[0].data| > 0
              && exists i :: FirstBeyondSkew(m, i) && r.error.diff == Distance(MatchOf(m, i), Head(m).time)
    // Once a base frame is popped, the caches lose their heads and matched prefixes, aligned or not.
    ensures r.Aligned? || r.Aborted? ==>
              && |m.caches[0].data| > 0
              && |r.state.caches| == |m.caches|
              && r.state.caches[0].data == m.caches[0].data[1..]
              && !r.state.newData
              && r.state.stopRequested == m.stopRequested
              && forall i :: 1 <= i < |m.caches| ==>
                   r.state.caches[i].data == m.caches[i].data[Closest(m.caches[i], Head(m).time) + 1..]
    // The recorded entry maps cache0 to the base frame and cache{i} to cache i's closest frame.
    ensures r.Aligned? ==>
              |r.state.synced| == |m.synced| + 1 &&
              var s := r.state.synced[|m.synced|];
              && (forall i: nat :: i in s <==> i < |m.caches|)
              && s[0] == Head(m)
              && forall i :: 1 <= i < |m.caches| ==> s[i] == MatchOf(m, i)
  {
    if m.stopRequested then
      Stopped(m)
    else if !m.newData then
      Waiting(m)
    else if PopFirst(m.caches[0]).0.None? then
      NoEntry(m.(newData := false))
    else
      AlignedState(m);
      Align(m)
  }

  // ------------------------------------------------------------ invariants

  /** Every frame of a recorded entry lies within the skew limit of `cache0`. */
  ghost predicate SkewValid<P>(s: SyncedEntry<P>) {
    0 in s && forall k :: k in s ==> Distance(s[k], s[0].time) <= MaxSkew
  }

  /** Every cache is time-ordered and every recorded entry is skew-valid. */
  ghost predicate Valid<P>(m: Manager<P>) {
    && (forall i :: 0 <= i < |m.caches| ==> NonDecreasing(m.caches[i].data))
    && (forall j :: 0 <= j < |m.synced| ==> SkewValid(m.synced[j]))
  }

  /** A suffix of an ordered buffer is ordered. */
  lemma SuffixKeepsOrder<P>(s: seq<Entry<P>>, k: nat)
    requires NonDecreasing(s)
    requires k <= |s|
    ensures NonDecreasing(s[k..])
  {
    assert forall i :: 0 <= i < |s| - k ==> s[k..][i] == s[k + i];
  }

  /** Dropping a popped head and matched prefixes keeps every cache ordered. */
  lemma TrimmedCachesStayOrdered<P>(m: Manager<P>, caches: seq<Cache<P>>)
    requires |m.caches| >= 1 && |m.caches[0].data| > 0
    requires forall i :: 1 <= i < |m.caches| ==> |m.caches[i].data| > 0
    requires forall i :: 0 <= i < |m.caches| ==> NonDecreasing(m.caches[i].data)
    requires |caches| == |m.caches| && caches[0].data == m.caches[0].data[1..]
    requires forall i :: 1 <= i < |m.caches| ==>
               caches[i].data == m.caches[i].data[Closest(m.caches[i], Head(m).time) + 1..]
    ensures forall i :: 0 <= i < |caches| ==> NonDecreasing(caches[i].data)
  {
    forall i | 0 <= i < |caches|
      ensures NonDecreasing(caches[i].data)
    {
      if i == 0 {
        SuffixKeepsOrder(m.caches[0].data, 1);
      } else {
        SuffixKeepsOrder(m.caches[i].data, Closest(m.caches[i], Head(m).time) + 1);
      }
    }
  }

  /** An entry built from matches that are all within the skew limit is
      skew-valid. */
  lemma MatchedEntryIsSkewValid<P>(m: Manager<P>, s: SyncedEntry<P>)
    requires |m.caches| >= 1 && |m.caches[0].data| > 0
    requires forall i :: 1 <= i < |m.caches| ==> |m.caches[i].data| > 0
    requires AllWithinSkew(m)
    requires forall i: nat :: i in s <==> i < |m.caches|
    requires s[0] == Head(m)
    requires forall i :: 1 <= i < |m.caches| ==> s[i] == MatchOf(m, i)
    ensures SkewValid(s)
  {
    forall k | k in s
      ensures Distance(s[k], s[0].time) <= MaxSkew
    {
      if k == 0 {
        assert Distance(s[0], s[0].time) == 0;
      }
    }
  }

  /** Appending a skew-valid entry to a skew-valid log keeps it skew-valid. */
  lemma ExtendedLogStaysValid<P>(log: seq<SyncedEntry<P>>, log': seq<SyncedEntry<P>>)
    requires forall j :: 0 <= j < |log| ==> SkewValid(log[j])
    requires |log'| == |log| + 1 && log'[..|log|] == log
    requires SkewValid(log'[|log|])
    ensures forall j :: 0 <= j < |log'| ==> SkewValid(log'[j])
  {
    forall j | 0 <= j < |log'|
      ensures SkewValid(log'[j])
    {
      if j < |log| {
        assert log'[j] == log'[..|log|][j];
      }
    }
  }

  /** A pass that pops a base frame keeps every cache ordered and records only
      a skew-valid entry. */
  lemma AlignPreservesValid<P>(m: Manager<P>)
    requires |m.caches| >= 1 && |m.caches[0].data| > 0
    requires forall i :: 1 <= i < |m.caches| ==> |m.caches[i].data| > 0
    requires Valid(m)
    ensures Valid(Align(m).state)
  {
    var r := Align(m);
    AlignedState(m);
    TrimmedCachesStayOrdered(m, r.state.caches);
    if r.Aligned? {
      MatchedEntryIsSkewValid(m, r.state.synced[|m.synced|]);
      ExtendedLogStaysValid(m.synced, r.state.synced);
    }
  }

  /** A pass keeps every cache ordered and records only skew-valid entries. */
  lemma StepPreservesValid<P>(m: Manager<P>)
    requires CanStep(m)
    requires Valid(m)
    ensures Valid(Step(m).state)
  {
    if !m.stopRequested && m.newData && |m.caches[0].data| > 0 {
      AlignPreservesValid(m);
    }
  }

  // -------------------------------------------------------------- scenarios

  /** Base frame at 10.00 s, the other cache holds 9.80 s and 10.05 s: the
      10.05 s frame is matched, 9.80 s is discarded, the tuple is recorded. */
  lemma MatchWithinSkewIsRecorded()
    ensures var m := Manager([Cache([Entry(10000000, 0)]),
                              Cache([Entry(9800000, 1), Entry(10050000, 2)])], [], true, false);
            && CanStep(m)
            && Step(m) == Aligned(Manager([Cache([]), Cache([])],
                                          [map[0 := Entry(10000000, 0), 1 := Entry(10050000, 2)]],
                                          false, false))
  {
    var m := Manager([Cache([Entry(10000000, 0)]),
                      Cache([Entry(9800000, 1), Entry(10050000, 2)])], [], true, false);
    MatchWithinSkewMatches();
    OneMatchEntry(Entry(10000000, 0), Entry(10050000, 2));
  }

  /** With a single other cache the entry has exactly the two keys 0 and 1. */
  lemma OneMatchEntry<P>(base: Entry<P>, e: Entry<P>)
    ensures MakeSyncedEntry(base, [e]) == map[0 := base, 1 := e]
  {
    assert MatchedKeys([e]) == map[1 := e];
  }

  /** The matching half of the scenario above: the 10.05 s frame is the
      match, and both caches are left empty. */
  lemma MatchWithinSkewMatches()
    ensures var m := Manager([Cache([Entry(10000000, 0)]),
                              Cache([Entry(9800000, 1), Entry(10050000, 2)])], [], true, false);
            && CanStep(m)
            && PopAndMatch(m) == ([Entry(10050000, 2)], [Cache([]), Cache([])])
  {
    var m := Manager([Cache([Entry(10000000, 0)]),
                      Cache([Entry(9800000, 1), Entry(10050000, 2)])], [], true, false);
    assert FindClosestIndex(m.caches[1], 10000000) == Some(1);
    var (closest, caches) := PopAndMatch(m);
    assert closest == [Entry(10050000, 2)];
    assert caches == [Cache([]), Cache([])];
  }


  /** Same, but the closest frame is at 10.50 s: the pass aborts with a skew
      error and nothing is recorded. */
  lemma MatchBeyondSkewAborts()
    ensures var m := Manager([Cache([Entry(10000000, 0)]), Cache([Entry(10500000, 1)])], [], true, false);
            && CanStep(m)
            && Step(m) == Aborted(Manager([Cache([]), Cache([])], [], false, false), SkewExceeded(500000))
  {
    var m := Manager([Cache([Entry(10000000, 0)]), Cache([Entry(10500000, 1)])], [], true, false);
    assert FindClosestIndex(m.caches[1], 10000000) == Some(0);
  }
}

=== FILE: text.dfy ===
/** The Python string operations the frame parser relies on:
    `str.splitlines()`, `str.split(',')` and `int(text)` in base 10. */
module Text {
  import opened Wrappers

  // ----------------------------------------------------------- searching

  /** The first index at or after `i` whose character satisfies `p`, or `|s|`. */
  function FirstIndex(s: string, i: nat, p: char -> bool): (r: nat)
    requires i <= |s|
    ensures i <= r <= |s|
    ensures forall k :: i <= k < r ==> !p(s[k])
    ensures r < |s| ==> p(s[r])
    decreases |s| - i
  {
    if i == |s| || p(s[i]) then i else FirstIndex(s, i + 1, p)
  }

  /** `FirstIndex` finds the first position of `p` when there is one. */
  lemma FirstIndexAt(s: string, p: char -> bool, n: nat)
    requires n <= |s|
    requires forall k :: 0 <= k < n ==> !p(s[k])
    requires n == |s| || p(s[n])
    ensures FirstIndex(s, 0, p) == n
  {
  }

  // ---------------------------------------------------------- splitlines

  /** The characters at which `str.splitlines` ends a line. */
  predicate IsLineBreak(c: char) {
    || c == '\n' || c == '\r' || c == '\U{B}' || c == '\U{C}'
    || c == '\U{1C}' || c == '\U{1D}' || c == '\U{1E}'
    || c == '\U{85}' || c == '\U{2028}' || c == '\U{2029}'
  }

  predicate NoLineBreak(s: string) {
    forall i :: 0 <= i < |s| ==> !IsLineBreak(s[i])
  }

  /** `str.splitlines()`: the lines of `s` without their terminators; `\r\n`
      ends a single line, and a final terminator does not start an empty
      line. */
  function SplitLines(s: string): (r: seq<string>)
    ensures |r| == 0 <==> |s| == 0
    ensures forall j :: 0 <= j < |r| ==> NoLineBreak(r[j])
    decreases |s|
  {
    if |s| == 0 then
      []
    else
      var n := FirstIndex(s, 0, IsLineBreak);
      if n == |s| then
        [s]
      else
        var width := if s[n] == '\r' && n + 1 < |s| && s[n + 1] == '\n' then 2 else 1;
        [s[..n]] + SplitLines(s[n + width..])
  }

  /** The line endings `splitlines` sees in practice: `\n`, `\r\n` and `\r`. */
  predicate IsLineEnd(eol: string) {
    eol == "\n" || eol == "\r\n" || eol == "\r"
  }

  /** Each line followed by the line ending `eol`. */
  function Unlines(lines: seq<string>, eol: string): string {
    if |lines| == 0 then "" else lines[0] + eol + Unlines(lines[1..], eol)
  }

  /** A line without break characters, followed by a line ending, is split
      off as the first line; the ending `\r` is one break only when no `\n`
      follows it. */
  lemma SplitLinesAfterLine(line: string, eol: string, rest: string)
    requires NoLineBreak(line)
    requires IsLineEnd(eol)
    requires eol == "\r" && rest != "" ==> rest[0] != '\n'
    ensures SplitLines(line + eol + rest) == [line] + SplitLines(rest)
  {
    var s := line + eol + rest;
    var n := |line|;
    assert forall k :: 0 <= k < n ==> s[k] == line[k];
    assert s[n] == eol[0];
    FirstIndexAt(s, IsLineBreak, n);
    assert s[..n] == line;
    if eol == "\r\n" {
      assert s[n + 1] == '\n';
    } else if eol == "\r" && n + 1 < |s| {
      assert s[n + 1] == rest[0];
    }
    assert s[n + |eol|..] == rest;
  }

  /** Text without break characters is a single line, or none when empty. */
  lemma SplitLinesOneLine(s: string)
    requires NoLineBreak(s)
    ensures SplitLines(s) == if s == "" then [] else [s]
  {
    if s != "" {
      FirstIndexAt(s, IsLineBreak, |s|);
    }
  }

  /** The first line and its ending, then the rest. */
  lemma UnlinesCons(lines: seq<string>, eol: string, last: string)
    requires |lines| > 0
    ensures Unlines(lines, eol) + last == lines[0] + eol + (Unlines(lines[1..], eol) + last)
  {
    assert Unlines(lines, eol) == lines[0] + eol + Unlines(lines[1..], eol);
  }

  /** Text made of lines and endings other than `\n` does not start with
      `\n`: it starts a line, an ending or the last line. */
  lemma UnlinesHead(lines: seq<string>, eol: string, last: string)
    requires IsLineEnd(eol)
    requires forall j :: 0 <= j < |lines| ==> NoLineBreak(lines[j])
    requires NoLineBreak(last)
    ensures var t := Unlines(lines, eol) + last; eol != "\n" && t != "" ==> t[0] != '\n'
  {
    var t := Unlines(lines, eol) + last;
    if |lines| == 0 {
      assert t == last;
    } else {
      assert t == lines[0] + eol + (Unlines(lines[1..], eol) + last);
      assert t[0] == (lines[0] + eol)[0];
    }
  }

  /** Lines without break characters, each ended by `\n`, `\r\n` or `\r` and
      optionally followed by a last line with no ending, come back out of
      `splitlines` intact; an empty last line adds no line. */
  lemma {:induction false} SplitLinesUnlines(lines: seq<string>, eol: string, last: string)
    requires IsLineEnd(eol)
    requires forall j :: 0 <= j < |lines| ==> NoLineBreak(lines[j])
    requires NoLineBreak(last)
    ensures SplitLines(Unlines(lines, eol) + last) == lines + (if last == "" then [] else [last])
  {
    if |lines| == 0 {
      assert Unlines(lines, eol) + last == last;
      SplitLinesOneLine(last);
    } else {
      var rest := Unlines(lines[1..], eol) + last;
      var tail := if last == "" then [] else [last];
      calc {
        SplitLines(Unlines(lines, eol) + last);
        { UnlinesCons(lines, eol, last); }
        SplitLines(lines[0] + eol + rest);
        { UnlinesHead(lines[1..], eol, last);
          SplitLinesAfterLine(lines[0], eol, rest); }
        [lines[0]] + SplitLines(rest);
        { SplitLinesUnlines(lines[1..], eol, last); }
        [lines[0]] + (lines[1..] + tail);
        { assert lines == [lines[0]] + lines[1..]; }
        lines + tail;
      }
    }
  }

  /** Lines joined by `eol`, with or without an ending after the last one,
      split back into those lines when none is empty or holds a break. */
  lemma LinesOfText(lines: seq<string>, eol: string, finalEol: bool)
    requires IsLineEnd(eol) && |lines| > 0
    requires forall j :: 0 <= j < |lines| ==> NoLineBreak(lines[j])
    requires lines[|lines| - 1] != ""
    ensures finalEol ==> SplitLines(Unlines(lines, eol) + "") == lines
    ensures !finalEol ==> SplitLines(Unlines(lines[..|lines| - 1], eol) + lines[|lines| - 1]) == lines
  {
    var n := |lines| - 1;
    if finalEol {
      SplitLinesUnlines(lines, eol, "");
      assert lines + [] == lines;
    } else {
      SplitLinesUnlines(lines[..n], eol, lines[n]);
      assert lines[..n] + [lines[n]] == lines;
    }
  }

  // --------------------------------------------------------------- split

  /** `s.split(sep)` for a one-character separator: always at least one
      piece, and empty pieces are kept. */
  function Split(s: string, sep: char): (r: seq<string>)
    ensures |r| >= 1
    ensures forall j :: 0 <= j < |r| ==> sep !in r[j]
    decreases |s|
  {
    var n := FirstIndex(s, 0, c => c == sep);
    if n == |s| then [s] else [s[..n]] + Split(s[n + 1..], sep)
  }

  /** `sep.join(parts)`. */
  function Join(parts: seq<string>, sep: char): string {
    if |parts| == 0 then ""
    else if |parts| == 1 then parts[0]
    else parts[0] + [sep] + Join(parts[1..], sep)
  }

  /** Splitting and joining again gives back the text. */
  lemma {:induction false} JoinSplit(s: string, sep: char)
    ensures Join(Split(s, sep), sep) == s
    decreases |s|
  {
    var n := FirstIndex(s, 0, c => c == sep);
    if n < |s| {
      var rest := Split(s[n + 1..], sep);
      assert Split(s, sep) == [s[..n]] + rest;
      JoinSplit(s[n + 1..], sep);
      assert Join(Split(s, sep), sep) == s[..n] + [sep] + Join(rest, sep);
      assert s == s[..n] + [sep] + s[n + 1..];
    }
  }

  /** Pieces free of the separator come back out of `split` intact. */
  lemma {:induction false} SplitJoin(parts: seq<string>, sep: char)
    requires |parts| >= 1
    requires forall j :: 0 <= j < |parts| ==> sep !in parts[j]
    ensures Split(Join(parts, sep), sep) == parts
  {
    var s := Join(parts, sep);
    var n := |parts[0]|;
    if |parts| == 1 {
      FirstIndexAt(s, c => c == sep, n);
    } else {
      assert s == parts[0] + [sep] + Join(parts[1..], sep);
      assert forall k :: 0 <= k < n ==> s[k] == parts[0][k];
      FirstIndexAt(s, c => c == sep, n);
      assert s[..n] == parts[0];
      assert s[n + 1..] == Join(parts[1..], sep);
      SplitJoin(parts[1..], sep);
    }
  }

  /** Joining line-free pieces with a non-break separator gives a single line. */
  lemma {:induction false} JoinNoLineBreak(parts: seq<string>, sep: char)
    requires !IsLineBreak(sep)
    requires forall j :: 0 <= j < |parts| ==> NoLineBreak(parts[j])
    ensures NoLineBreak(Join(parts, sep))
  {
    if |parts| > 1 {
      JoinNoLineBreak(parts[1..], sep);
    }
  }

  // ----------------------------------------------------------------- int

  /** The characters `int()` skips around a numeral: the six ASCII
      whitespace characters (tab, `\n`, `\v`, `\f`, `\r`, space) and the
      whitespace characters beyond ASCII. The ASCII separators U+001C to
      U+001F, which `str.isspace` also accepts, are not skipped by `int()`. */
  predicate IsSpace(c: char) {
    || c == ' ' || c == '\t' || c == '\n' || c == '\r' || c == '\U{B}' || c == '\U{C}'
    || c == '\U{85}' || c == '\U{A0}' || c == '\U{1680}'
    || ('\U{2000}' <= c <= '\U{200A}') || c == '\U{2028}' || c == '\U{2029}'
    || c == '\U{202F}' || c == '\U{205F}' || c == '\U{3000}'
  }

  /** Leading whitespace removed, as `int()` skips it. */
  function TrimStart(s: string): (r: string)
    ensures |r| <= |s| && r == s[|s| - |r|..]
    ensures |r| > 0 ==> !IsSpace(r[0])
    ensures forall k :: 0 <= k < |s| - |r| ==> IsSpace(s[k])
  {
    if |s| > 0 && IsSpace(s[0]) then TrimStart(s[1..]) else s
  }

  /** Trailing whitespace removed, as `int()` skips it. */
  function TrimEnd(s: string): (r: string)
    ensures |r| <= |s| && r == s[..|r|]
    ensures |r| > 0 ==> !IsSpace(r[|r| - 1])
    ensures forall k :: |r| <= k < |s| ==> IsSpace(s[k])
  {
    if |s| > 0 && IsSpace(s[|s| - 1]) then TrimEnd(s[..|s| - 1]) else s
  }

  predicate IsDigit(c: char) {
    '0' <= c <= '9'
  }

  predicate AllDigits(s: string) {
    forall i :: 0 <= i < |s| ==> IsDigit(s[i])
  }

  function DigitValue(c: char): (d: nat)
    requires IsDigit(c)
    ensures d < 10
  {
    (c as int) - ('0' as int)
  }

  /** The value of a decimal numeral, most significant digit first. */
  function DigitsValue(s: string): nat
    requires AllDigits(s)
  {
    if |s| == 0 then 0 else DigitsValue(s[..|s| - 1]) * 10 + DigitValue(s[|s| - 1])
  }

  /** The text `int()` parses: whitespace removed from both ends. */
  function Strip(text: string): string {
    TrimEnd(TrimStart(text))
  }

  /** The signs `int()` accepts in front of the digits. */
  predicate IsSign(sign: string) {
    sign == "" || sign == "-" || sign == "+"
  }

  /** `t` is an optional sign followed by one or more ASCII decimal digits. */
  ghost predicate IsNumeral(t: string, sign: string, digits: string) {
    IsSign(sign) && |digits| > 0 && AllDigits(digits) && t == sign + digits
  }

  /** The integer a sign and a run of digits denote. */
  function SignedValue(sign: string, digits: string): int
    requires AllDigits(digits)
  {
    var magnitude: int := DigitsValue(digits);
    if sign == "-" then -magnitude else magnitude
  }

  /** `int(text)`: surrounding whitespace, an optional sign and at least one
      decimal digit; anything else is a `ValueError`, here `None`. */
  function ParseInt(text: string): (r: Option<int>)
    ensures r.Some? <==> exists sign, digits :: IsNumeral(Strip(text), sign, digits)
    ensures forall sign, digits :: IsNumeral(Strip(text), sign, digits) ==> r == Some(SignedValue(sign, digits))
  {
    var t := Strip(text);
    NumeralShape(t);
    if |t| > 0 && (t[0] == '-' || t[0] == '+') then
      var digits := t[1..];
      if |digits| > 0 && AllDigits(digits) then
        var magnitude: int := DigitsValue(digits);
        Some(if t[0] == '-' then -magnitude else magnitude)
      else
        None
    else if |t| > 0 && AllDigits(t) then
      Some(DigitsValue(t))
    else
      None
  }

  /** A numeral splits into its sign and digits in exactly one way: a leading
      `-` or `+` is the sign, and otherwise there is none. */
  lemma NumeralShape(t: string)
    ensures forall sign, digits :: IsNumeral(t, sign, digits) ==>
              if t[0] == '-' || t[0] == '+' then sign == [t[0]] && digits == t[1..] else sign == "" && digits == t
    ensures |t| > 1 && (t[0..1] == "-" || t[0..1] == "+") && AllDigits(t[1..]) ==> IsNumeral(t, t[0..1], t[1..])
    ensures |t| > 0 && AllDigits(t) ==> IsNumeral(t, "", t)
  {
    forall sign, digits | IsNumeral(t, sign, digits)
      ensures if t[0] == '-' || t[0] == '+' then sign == [t[0]] && digits == t[1..] else sign == "" && digits == t
    {
      if sign == "" {
        assert t == digits;
        assert IsDigit(t[0]);
      } else {
        assert t[0] == sign[0];
        assert t[1..] == digits;
      }
    }
    if |t| > 1 {
      assert t == t[0..1] + t[1..];
    }
  }

  /** The shortest decimal numeral of `n`. */
  function NatToDigits(n: nat): (r: string)
    ensures |r| >= 1 && AllDigits(r)
  {
    var last := ['0' + ((n % 10) as char)];
    if n < 10 then last else NatToDigits(n / 10) + last
  }

  /** `str(n)` for an integer. */
  function IntToString(n: int): string {
    if n < 0 then "-" + NatToDigits(-n) else NatToDigits(n)
  }

  /** The numeral reads back as the number it was made from. */
  lemma {:induction false} DigitsValueOfNatToDigits(n: nat)
    ensures DigitsValue(NatToDigits(n)) == n
  {
    var s := NatToDigits(n);
    assert s[|s| - 1] == '0' + ((n % 10) as char);
    if n >= 10 {
      assert s[..|s| - 1] == NatToDigits(n / 10);
      DigitsValueOfNatToDigits(n / 10);
    }
  }

  /** `str(n)` is a single comma-free line. */
  lemma IntToStringIsClean(n: int)
    ensures NoLineBreak(IntToString(n))
    ensures ',' !in IntToString(n)
  {
    var s := IntToString(n);
    var d := NatToDigits(if n < 0 then -n else n);
    assert forall i :: 0 <= i < |d| ==> IsDigit(d[i]);
  }

  /** A numeral has no whitespace at either end, so trimming leaves it alone. */
  lemma TrimNumeral(s: string)
    requires |s| > 0
    requires IsDigit(s[0]) || s[0] == '-'
    requires IsDigit(s[|s| - 1])
    ensures Strip(s) == s
  {
    assert !IsSpace(s[0]);
    assert TrimStart(s) == s;
    assert !IsSpace(s[|s| - 1]);
  }

  /** `str(n)` is a numeral: a `-` for a negative `n`, then the digits of `|n|`. */
  lemma IntToStringIsNumeral(n: int)
    ensures var m: nat := if n < 0 then -n else n;
            IsNumeral(Strip(IntToString(n)), if n < 0 then "-" else "", NatToDigits(m))
  {
    var m: nat := if n < 0 then -n else n;
    var s := IntToString(n);
    TrimNumeral(s);
    if n >= 0 {
      assert s == "" + NatToDigits(m);
    }
  }

  /** The ASCII separators U+001C..U+001F are not whitespace to `int()`, so
      text starting with one is never a number, although `splitlines` breaks
      lines at the first three of them. */
  lemma ParseIntSeparator(text: string)
    requires |text| > 0 && '\U{1C}' <= text[0] <= '\U{1F}'
    ensures ParseInt(text) == None
  {
    StripKeepsFirst(text);
    var t := Strip(text);
    assert t[0] != '-' && t[0] != '+' && !AllDigits(t) by {
      assert !IsDigit(t[0]);
    }
  }

  /** Text that does not start with whitespace keeps its first character
      when stripped. */
  lemma StripKeepsFirst(text: string)
    requires |text| > 0 && !IsSpace(text[0])
    ensures |Strip(text)| > 0 && Strip(text)[0] == text[0]
  {
    assert TrimStart(text) == text;
  }

  /** `int(str(n)) == n`. */
  lemma ParseIntToString(n: int)
    ensures ParseInt(IntToString(n)) == Some(n)
  {
    var m: nat := if n < 0 then -n else n;
    IntToStringIsNumeral(n);
    DigitsValueOfNatToDigits(m);
    assert SignedValue(if n < 0 then "-" else "", NatToDigits(m)) == n;
  }
}

=== FILE: wrappers.dfy ===
/** Failure-compatible wrappers: Python's `None` returns and raised exceptions
    become explicit values, so that every error path is part of a result. */
module Wrappers {

  /** A value or nothing; `None` stands for Python's `None` return. */
  datatype Option<+T> = None | Some(value: T)

  /** A value or a raised error; usable with `:-`. */
  datatype Result<+R, +E> = Success(value: R) | Failure(error: E) {

    predicate IsFailure() {
      Failure?
    }

    function PropagateFailure<U>(): Result<U, E>
      requires Failure?
    {
      Failure(error)
    }

    function Extract(): R
      requires Success?
    {
      value
    }
  }
}
